=== FILE: README.md ===
# Recipe URLs and recipe forms, modelled in Dafny

This project models the logic of the recipe web app that does not touch the
network:

- **The recipe slug codec** of `web/src/utils/urlUtils.js`.
  - `generateRecipeSlug` normalises a recipe title into a URL segment and appends the recipe identifier. A UUID-shaped identifier follows `--`; any other identifier follows a single `-`.
  - `parseRecipeSlug` reads the identifier back from a slug.
- **The path builders** (`/<username>`, `/<username>/my-recipes`, `/<username>/my-recipes/<slug>`, …), with their literal fallbacks, plus the username format check and the four-step choice of the username a URL carries.
- **The ingredient and step lists** of the create and edit recipe pages:
  - the initial one-entry list and append;
  - remove, which refuses to remove the last entry;
  - replace at an index.
- **The submit checks and cleaning of the two pages.** The create page makes one combined check and stores everything trimmed. The edit page makes four ordered checks and stores the entries untrimmed.
- **Old-image lookup on the edit page.** The object path is read from the old image URL's pathname, after the `recipe-images` or `recipe_images` bucket segment. When no bucket segment is found, or the bucket is the last segment, the page falls back to guessing bucket/path pairs from the URL's last segment.

Modules:

| module | contents |
|---|---|
| `Wrappers` | `Option` |
| `Sequences` | `Filter`, `Map`, `DropWhile` and `DropLastWhile`, with their algebra |
| `Strings` | JavaScript string behaviour the code relies on: character classes, ASCII `toLowerCase`, `trim`, one-character `split`/`join`, `String(n)` for integers |
| `TitleSlugs` | the five-step title normalisation |
| `SlugCodec` | the encoder, the decoder and their round trips |
| `Urls` | the path builders and usernames |
| `RecipeForms` | the lists and the submit handlers |
| `ImageStorage` | the storage-path extraction and the deletion fallback |

JavaScript's loose typing is made explicit:
- An identifier is a `RecipeId`: a string, an integer, a `Date` (whose time value may be NaN) or a missing value.
- The empty string stands for every falsy string argument.
- `Date.parse` is a parameter `parseDate: string -> Option<int>`, where None is NaN.

## Model

| member | source | states |
|---|---|---|
| TitleSlugs.TitleSlug | web/src/utils/urlUtils.js:13-18 | whatever the title, the normalised segment uses only `[a-z0-9-]` and has no leading, trailing or doubled hyphen |
| TitleSlugs.StripSpecials | web/src/utils/urlUtils.js:15 | after removing special characters only lowercase ASCII letters, digits, whitespace and `-` remain |
| TitleSlugs.StripSpecialsKeepsWords | web/src/utils/urlUtils.js:15 | removing special characters keeps every lowercase letter and digit, in order |
| TitleSlugs.SpacesToHyphensRemovesSpaces | web/src/utils/urlUtils.js:16 | after replacing whitespace runs no whitespace is left |
| TitleSlugs.SpacesToHyphensSlugChars | web/src/utils/urlUtils.js:16 | a string of `[a-z0-9\s-]` becomes a string of `[a-z0-9-]` |
| TitleSlugs.SpacesToHyphensKeepsWords | web/src/utils/urlUtils.js:16 | replacing whitespace runs keeps every lowercase letter and digit, in order |
| TitleSlugs.SpacesToHyphensKeepsSpaceless | web/src/utils/urlUtils.js:16 | a string without whitespace is left unchanged |
| TitleSlugs.CollapseHyphens | web/src/utils/urlUtils.js:17 | collapsing hyphen runs gives an empty result only for an empty input and keeps the first character |
| TitleSlugs.CollapseHyphensSingles | web/src/utils/urlUtils.js:17 | after collapsing, no two hyphens are adjacent |
| TitleSlugs.CollapseHyphensSlugChars | web/src/utils/urlUtils.js:17 | collapsing adds no character outside `[a-z0-9-]` |
| TitleSlugs.CollapseHyphensKeepsWords | web/src/utils/urlUtils.js:17 | collapsing keeps every lowercase letter and digit, in order |
| TitleSlugs.CollapseHyphensKeepsSingle | web/src/utils/urlUtils.js:17 | a string without doubled hyphens is left unchanged |
| TitleSlugs.TrimHyphens | web/src/utils/urlUtils.js:18 | the result neither starts nor ends with a hyphen |
| TitleSlugs.TrimHyphensShape | web/src/utils/urlUtils.js:18 | trimming hyphens keeps the absence of doubled hyphens and the `[a-z0-9-]` character set |
| TitleSlugs.TrimHyphensKeepsTrimmed | web/src/utils/urlUtils.js:18 | a string that neither starts nor ends with a hyphen is left unchanged |
| TitleSlugs.NormalTitleIsFixed | web/src/utils/urlUtils.js:13-18 | a title already in normal form comes out of the normalisation unchanged |
| TitleSlugs.TitleSlugIdempotent | web/src/utils/urlUtils.js:13-18 | normalising twice gives the same segment as normalising once |
| TitleSlugs.TitleSlugKeepsWords | web/src/utils/urlUtils.js:13-18 | the letters and digits of the lowercased title survive normalisation, all of them and in order |
| TitleSlugs.SpacesToHyphensRun | web/src/utils/urlUtils.js:16 | a maximal whitespace run after a whitespace-free prefix becomes exactly one hyphen, and the prefix is kept |
| TitleSlugs.CollapseHyphensRun | web/src/utils/urlUtils.js:17 | a maximal run of hyphens becomes exactly one hyphen |
| TitleSlugs.TitleSlugJoinsWords | web/src/utils/urlUtils.js:13-18 | lowercase `[a-z0-9]` words separated by runs of whitespace and hyphens normalise to the same words joined by single hyphens |
| TitleSlugs.TitleSlugEmptyIff | web/src/utils/urlUtils.js:13-18 | the segment is empty exactly when the title has no ASCII letter or digit |
| SlugCodec.IdValue | web/src/utils/urlUtils.js:26-35 | the text written after a single hyphen (a time value, or `String(id)`) is never empty for a truthy identifier |
| SlugCodec.GenerateRecipeSlug | web/src/utils/urlUtils.js:9-38 | the slug is empty exactly when the title or the identifier is falsy; otherwise it is the normalised title followed by `--` and the identifier itself when that is UUID-shaped, and by `-` and the identifier's written value when it is not |
| SlugCodec.FirstDoubleHyphenFrom | web/src/utils/urlUtils.js:49 | `indexOf('--')`: the result is a position of `--` and no earlier position holds one |
| SlugCodec.LastIndexOf | web/src/utils/urlUtils.js:59 | `lastIndexOf('-')`: the result holds the character and no later position does |
| SlugCodec.ParseRecipeSlug | web/src/utils/urlUtils.js:45-70 | an empty slug or one without `-` yields `''`; a found identifier is a suffix that follows a hyphen and is either an RFC 4122 UUID or a run of digits |
| SlugCodec.ParseFindsUuid | web/src/utils/urlUtils.js:49-56 | when a UUID follows the first `--`, the decoder returns that UUID |
| SlugCodec.ParseFindsDigits | web/src/utils/urlUtils.js:58-65 | when no UUID follows the first `--` and a digit run follows a `-` (which is then the last `-`), the decoder returns that digit run |
| SlugCodec.ParseFindsNothing | web/src/utils/urlUtils.js:45-70 | when neither rule matches, the decoder returns `''` |
| SlugCodec.UuidIsNotDigits | web/src/utils/urlUtils.js:53-65 | a UUID is never a digit run, so the decoder's two rules never both accept the same text |
| SlugCodec.UuidRoundTrip | web/src/utils/urlUtils.js:22-25 | for a non-empty title, decoding the slug of a UUID identifier gives that UUID back |
| SlugCodec.DigitsRoundTrip | web/src/utils/urlUtils.js:26-37 | when the identifier is not UUID-shaped and its written value is a digit run, decoding gives that value back |
| SlugCodec.TimestampRoundTrip | web/src/utils/urlUtils.js:32-37 | a positive integer identifier up to 2^53 - 1 decodes to its decimal digits |
| SlugCodec.DateRoundTrip | web/src/utils/urlUtils.js:26-28 | a `Date` with a valid non-negative time value (at most 8.64e15) decodes to the decimal digits of that time |
| SlugCodec.DecodeIgnoresTitle | web/src/utils/urlUtils.js:45-56 | two slugs for the same UUID under different titles decode to the same identifier |
| SlugCodec.UuidSlugHasNoSlash | web/src/utils/urlUtils.js:9-25 | the slug of a UUID identifier holds no `/`, so it stays one path segment |
| SlugCodec.DigitsSlugHasNoSlash | web/src/utils/urlUtils.js:26-37 | the slug of an identifier written as a digit run holds no `/` |
| SlugCodec.NonUuidAfterDoubleHyphen | web/src/utils/urlUtils.js:49-69 | text after `--` that is not a UUID falls through to the last-hyphen rule and can yield `''` |
| SlugCodec.NegativeNumberLosesSign | web/src/utils/urlUtils.js:34-37 | a negative safe integer is written with its minus sign, which the decoder reads as a `--`, so the identifier comes back without its sign |
| SlugCodec.NonRfcUuidDecodesToLastGroup | web/src/utils/urlUtils.js:22-25 | an identifier the encoder treats as a UUID (36 characters with a hyphen) but that fails the decoder's stricter pattern does not come back: when it ends in a hyphen and digits, the decoder returns those digits |
| SlugCodec.NilUuidDecodesToLastGroup | web/src/utils/urlUtils.js:22-25 | the nil UUID is such an identifier and decodes to its last group `000000000000` |
| Urls.ChosenIdFallbacks | web/src/utils/urlUtils.js:114-121 | a record without a truthy id is linked by its creation time, and a bare title by the third argument |
| Urls.UserPathsSplit | web/src/utils/urlUtils.js:77-138 | for a one-segment username, the profile, list, create and edit paths split into exactly the username followed by their fixed words and the recipe id |
| Urls.RecipeUrlRoundTrip | web/src/utils/urlUtils.js:109-127 | the recipe URL of a UUID record has four segments; the second is the username and the fourth decodes to the UUID |
| Urls.RecipeUrlDigitsRoundTrip | web/src/utils/urlUtils.js:109-127 | the recipe URL of a record whose chosen id is written as digits has four segments; the second is the username and the fourth decodes to those digits |
| Urls.FallbackCollisions | web/src/utils/urlUtils.js:77-100 | for a non-empty username, the profile link equals the profile, list or create fallback exactly for the user named `profile`, `my-recipes` or `create-recipe` respectively; a user's list or create link is never one of the three fallbacks |
| Urls.ProfileUrlShadowed | web/src/App.js:16-26 | route matching ignores ASCII case, so a user's profile link reaches a fixed page exactly when the name, lowercased, is `profile`, `saved-recipes`, `create-recipe` or `my-recipes`; every such name, in any mix of case, passes the username format check |
| Urls.MixedCaseNameIsShadowed | web/src/App.js:17 | `Profile` is a valid username whose link differs from `/profile` in spelling yet is matched by that static route |
| Urls.IsValidUsername | web/src/utils/urlUtils.js:145-149 | valid exactly when 3 to 30 characters long and every character is a letter, digit, `_` or `-` |
| Urls.UsernameForUrl | web/src/utils/urlUtils.js:157-162 | the profile's username, else the metadata username, else the ASCII letters and digits of the email's text before the first `@`, else `user` |
| Urls.EmailHandleIsSanitisedLocalPart | web/src/utils/urlUtils.js:160 | the email step keeps exactly the letters and digits of the text before the first `@`, in order |
| Urls.EmptyHandleIsReturned | web/src/utils/urlUtils.js:160 | an email with nothing before `@` gives the empty username, and the profile link falls back to `/profile` |
| Urls.DerivedUsernamesAreValid | web/src/utils/urlUtils.js:145-149 | a username derived from the email or the `user` fallback passes the format check whenever its length is in range |
| Urls.StoredNameIsNotSanitised | web/src/utils/urlUtils.js:158 | a stored username is used verbatim, and a `/` in it splits the profile path into extra segments |
| Strings.Split | web/src/utils/urlUtils.js:160 | `split` on one character gives at least one part, no part holds the separator, and joining the parts gives the string back |
| Strings.FirstPartIsPrefix | web/src/utils/urlUtils.js:160 | the first part of a split is the text before the first separator, or the whole string |
| Strings.LastPartIsSuffix | web/src/pages/EditRecipe.js:272 | the last part of a split is the text after the last separator, or the whole string |
| Strings.SplitJoin | web/src/pages/EditRecipe.js:232-245 | splitting the join of separator-free parts gives the parts back |
| Strings.BlankIffAllSpace | web/src/pages/CreateRecipe.js:141-144 | `s.trim()` is empty exactly when every character is whitespace |
| Strings.TrimIdempotent | web/src/pages/CreateRecipe.js:188-194 | trimming a trimmed string changes nothing |
| Strings.IntToDecimal | web/src/utils/urlUtils.js:34 | `String(n)` is the decimal digits of the value, with a leading `-` for a negative number |
| RecipeForms.AddEntry | web/src/pages/CreateRecipe.js:103-105 | the list grows by one, keeping every entry and ending with an empty one |
| RecipeForms.WithoutIndex | web/src/pages/EditRecipe.js:136 | filtering out index `i` removes that entry and keeps the rest in order; an index out of range changes nothing |
| RecipeForms.RemoveEntry | web/src/pages/CreateRecipe.js:107-112 | the entry is removed only when more than one remains, so a non-empty list stays non-empty |
| RecipeForms.ReplaceEntry | web/src/pages/EditRecipe.js:140-144 | only the entry at the index changes, and the length is kept |
| RecipeForms.NeverEmpty | web/src/pages/EditRecipe.js:130-160 | no sequence of adds, removes and changes empties a non-empty list |
| RecipeForms.LoadedListsStayFilled | web/src/pages/EditRecipe.js:105-106 | a missing stored list loads as `['']`, and a loaded non-empty list stays non-empty under any edits |
| RecipeForms.LoadedEmptyListStaysEmpty | web/src/pages/EditRecipe.js:105-106 | a stored empty list is truthy and stays empty, and removing from it does nothing |
| RecipeForms.FilledEntries | web/src/pages/CreateRecipe.js:141-142 | the kept entries are all non-blank, and some are kept exactly when some entry is non-blank |
| RecipeForms.FilledEntriesInOrder | web/src/pages/EditRecipe.js:206-212 | the filter distributes over concatenation and keeps a single entry exactly when it is non-blank, so the order is kept |
| RecipeForms.CleanEntries | web/src/pages/CreateRecipe.js:188-189 | the cleaned list has one entry per non-blank input, in order, and each is the trimmed input entry, so it is non-empty and already trimmed |
| RecipeForms.CleanEntriesIdempotent | web/src/pages/CreateRecipe.js:188-189 | cleaning a cleaned list changes nothing |
| RecipeForms.CreateSubmit | web/src/pages/CreateRecipe.js:132-199 | signed out gives the sign-in message; signed in saves exactly when title and category are non-blank and both lists have a non-blank entry, and stores the trimmed title, category and non-blank entries |
| RecipeForms.EditSubmit | web/src/pages/EditRecipe.js:190-216 | signed out does nothing; otherwise the first failing check (title, category, ingredients, steps) decides the message; a saved draft holds the trimmed title, the category as typed and the untrimmed non-blank entries |
| RecipeForms.CreateAndEditAgree | web/src/pages/EditRecipe.js:323-326 | whatever the create page saves, the edit page saves too, with the same entries untrimmed; the converse holds for a non-blank category |
| RecipeForms.BlankCategoryOnlyPassesEdit | web/src/pages/EditRecipe.js:201-204 | a category made only of spaces is refused on create but accepted on edit |
| ImageStorage.FindIndex | web/src/pages/EditRecipe.js:238 | `findIndex`: the first position holding the name, or -1 exactly when the name is absent |
| ImageStorage.BucketIndex | web/src/pages/EditRecipe.js:238-241 | the first `recipe-images` segment when there is one, otherwise the first `recipe_images` segment |
| ImageStorage.StoragePath | web/src/pages/EditRecipe.js:231-245 | a path is produced exactly when a bucket segment is found and is not the last segment |
| ImageStorage.StoragePathIsSuffix | web/src/pages/EditRecipe.js:244-245 | the produced path is what follows `<bucket>/` in the pathname, and splitting it gives exactly the segments after the bucket |
| ImageStorage.StoragePathRoundTrip | web/src/pages/EditRecipe.js:231-245 | a pathname built from leading segments, a bucket name and an object path gives that object path back |
| ImageStorage.PrimaryBucketWins | web/src/pages/EditRecipe.js:238-241 | `recipe-images` takes precedence even when `recipe_images` comes first |
| ImageStorage.BucketAsLastSegment | web/src/pages/EditRecipe.js:244 | a bucket name in the last segment yields no path |
| ImageStorage.LastSegment | web/src/pages/EditRecipe.js:272-273 | the URL's last segment holds no `/` and is the text after the last `/` |
| ImageStorage.OldImageTargetsNamedByUrl | web/src/pages/EditRecipe.js:225-282 | a removal target exists only with a new image, an old URL and a parseable pathname; it names one of the two buckets, and its path either is what follows a `/` at the end of the pathname or, when no bucket segment is found or it is the last segment, is a fallback guess |
| ImageStorage.Attempted | web/src/pages/EditRecipe.js:285-301 | targets are tried in order; every one tried before the last was refused, and the attempts stop early only at an accepted one |
| ImageStorage.TargetsEndInFileName | web/src/pages/EditRecipe.js:272-282 | every guessed target names one of the two buckets and a path that ends in the URL's last segment, which is non-empty and contains a `.` |

## Left out

- `Date.parse` and `Date#getTime` are not modelled. The parser is a parameter (`parseDate`, with None for NaN), and a `Date` object carries its time value. A numeric string that `Date.parse` accepts is therefore rewritten as a time value, so only numbers and dates get the timestamp round trip.
- Unicode `toLowerCase` is not modelled. `Strings.Lower` lowers ASCII letters only; other characters pass through, so a non-ASCII title letter is later stripped here even where JavaScript would lowercase it to an ASCII letter. `\s` and `trim` do use the full ECMAScript whitespace set.
- String lengths count code points, not UTF-16 code units. The 36-character UUID test therefore differs for text outside the Basic Multilingual Plane.
- Strings.IntToDecimal: writes every integer exactly. JavaScript does so only up to 2^53 - 1 (`Strings.MaxSafeInteger`); above that a number holds a rounded value and prints the shortest digits that round-trip. The exponent form for magnitudes of 1e21 or more and fractional numbers are not modelled either. Identifiers are integers. The timestamp, date and negative-number lemmas of `SlugCodec` therefore require their values to be safe integers, and a `Date`'s time value to be within ±8.64e15 (`SlugCodec.MaxTimeValue`).
- SlugCodec.RecipeId: has no object or boolean identifiers, whose `toString` output is not modelled.
- `new URL(...)` is not modelled. The pathname is an input, and None stands for a URL that fails to parse (the page catches that error and deletes nothing).
- The Supabase calls are not modelled: auth, queries, upload, the public-URL lookup, and the removals themselves. Which removals succeed is a parameter of `ImageStorage.Attempted`.
- React state, effects, timers, navigation, logging and the loading flags are not modelled. The submit handlers are modelled up to the moment they hand the draft to the database.
- RecipeForms.ReplaceEntry: requires the index to be in range. JavaScript would extend the array with holes for an index past the end, but the page only passes indices of rendered entries.
- `Urls.EditRecipeUrl` takes the recipe id as a string. Numeric ids would go through `String(id)` in the template literal.
- The create page's category lookup (`categories.find`) and the `category_id` it stores are not modelled.
- The edit page's loading of title and category with `|| ''`, and of the image URL, is not modelled. Only the list loading is.
- The inline redirect slug built in `web/src/pages/RecipeDetail.js` is not modelled. It uses a different normalisation and is not decoded by `parseRecipeSlug`.
- The PWA install prompt and the display-text helpers (`getRecipeSubtitle`, `getDisplayName`, `getAvatarInitials`) are not modelled. They are presentation.
- The `web/src/App.js` route table is modelled only as the set of one-segment paths it sends to fixed pages (`Urls.FixedPagePaths`), compared after ASCII lowercasing because route matching is case-insensitive by default. Route matching itself is not modelled. The table has no route for the edit path `/<username>/edit-recipe/<id>` and does not import the edit page, so `Urls.UserPathsSplit` states only how that path splits, not that any route matches it.
- No username is reserved: `isValidUsername` accepts `profile`, `saved-recipes`, `create-recipe` and `my-recipes` in any mix of case (`Profile`, `MY-RECIPES`), yet the profile links of those users reach fixed pages (`Urls.ProfileUrlShadowed`).
- Urls.ProfileUrlShadowed: covers exact and case-insensitive spellings only. Route matching also ignores a trailing `/`, so a name such as `profile/` reaches a fixed page too; such a name fails `isValidUsername`, but `getUsernameForUrl` passes a stored name through unchecked.
- Code that differs from its documentation:
  - The create page tests the title with `trim`, but `generateRecipeSlug` and `generateRecipeUrl` test only truthiness. A title of spaces therefore gives a slug made of `-` and the identifier.
  - `getUsernameForUrl` can return the empty string (email `@example.com`). It does not sanitise a stored profile or metadata username.

=== FILE: image_storage.dfy ===
/**
  Where the edit page looks for the old recipe image before replacing it:
  the object path read off the image URL's pathname (the parts after the
  first storage bucket name), and, when no bucket segment is found or it is
  the last segment, the bucket/path pairs it tries from the URL's last
  segment instead.
*/
module ImageStorage {
  import opened Wrappers
  import opened Strings

  const PrimaryBucket := "recipe-images"
  const LegacyBucket := "recipe_images"

  /** The first position of `x` in `parts`, or -1 when it is absent. */
  function FindIndex(parts: seq<string>, x: string): (r: int)
    ensures -1 <= r < |parts|
    ensures r >= 0 ==> parts[r] == x && forall j :: 0 <= j < r ==> parts[j] != x
    ensures r == -1 <==> x !in parts
    decreases |parts|
  {
    if |parts| == 0 then -1
    else if parts[0] == x then 0
    else
      var k := FindIndex(parts[1..], x);
      assert x in parts[1..] ==> x in parts;
      assert x in parts ==> x in parts[1..] by {
        if x in parts {
          var i :| 0 <= i < |parts| && parts[i] == x;
          assert parts[1..][i - 1] == x;
        }
      }
      if k == -1 then -1 else k + 1
  }

  /** The first `recipe-images` part, or else the first `recipe_images` part. */
  function BucketIndex(parts: seq<string>): (b: int)
    ensures -1 <= b < |parts|
    ensures PrimaryBucket in parts ==> b == FindIndex(parts, PrimaryBucket)
    ensures PrimaryBucket !in parts ==> b == FindIndex(parts, LegacyBucket)
  {
    var b := FindIndex(parts, PrimaryBucket);
    if b == -1 then FindIndex(parts, LegacyBucket) else b
  }

  /** The object path of an image, read from its URL's pathname: the parts
      after the bucket, joined with `/`. None when no bucket name is found
      or it is the last part. */
  function StoragePath(pathname: string): (r: Option<string>)
    ensures var parts := Split(pathname, '/');
      r.Some? <==> (PrimaryBucket in parts || LegacyBucket in parts) && BucketIndex(parts) < |parts| - 1
  {
    var parts := Split(pathname, '/');
    var b := BucketIndex(parts);
    if b != -1 && b < |parts| - 1 then Some(Join(parts[b + 1..], '/')) else None
  }

  /** A found path is what follows `<bucket>/` in the pathname, where the
      bucket name stands as a whole segment; splitting it gives exactly the
      parts after the bucket. */
  lemma StoragePathIsSuffix(pathname: string) returns (prefix: string, bucket: string)
    requires StoragePath(pathname).Some?
    ensures bucket == PrimaryBucket || bucket == LegacyBucket
    ensures pathname == prefix + bucket + "/" + StoragePath(pathname).value
    ensures prefix == "" || prefix[|prefix| - 1] == '/'
    ensures var parts := Split(pathname, '/');
      Split(StoragePath(pathname).value, '/') == parts[BucketIndex(parts) + 1..]
  {
    var parts := Split(pathname, '/');
    var b := BucketIndex(parts);
    bucket := parts[b];
    JoinAround(parts, b);
    prefix := JoinUpTo(parts, b);
    SplitOfTail(parts, b);
  }

  /** Joining cuts the parts after any part that is not the last one. */
  lemma JoinAround(parts: seq<string>, b: nat)
    requires b < |parts| - 1
    ensures Join(parts, '/') == Join(parts[..b + 1], '/') + "/" + Join(parts[b + 1..], '/')
  {
    assert parts == parts[..b + 1] + parts[b + 1..];
    JoinAppend(parts[..b + 1], parts[b + 1..], '/');
  }

  /** The joined parts up to and including part `b` end in that part, after
      a separator unless it is the first one. */
  lemma JoinUpTo(parts: seq<string>, b: nat) returns (prefix: string)
    requires b < |parts|
    ensures Join(parts[..b + 1], '/') == prefix + parts[b]
    ensures prefix == "" || prefix[|prefix| - 1] == '/'
  {
    if b == 0 {
      prefix := "";
      assert parts[..1] == [parts[0]];
    } else {
      prefix := Join(parts[..b], '/') + "/";
      assert parts[..b + 1] == parts[..b] + [parts[b]];
      JoinAppend(parts[..b], [parts[b]], '/');
    }
  }

  /** Splitting the joined tail of a split gives the tail back. */
  lemma SplitOfTail(parts: seq<string>, b: nat)
    requires b < |parts| - 1
    requires forall i :: 0 <= i < |parts| ==> '/' !in parts[i]
    ensures Split(Join(parts[b + 1..], '/'), '/') == parts[b + 1..]
  {
    var back := parts[b + 1..];
    forall i | 0 <= i < |back| ensures '/' !in back[i] {
      assert back[i] == parts[b + 1 + i];
    }
    SplitJoin(back, '/');
  }

  /** A pathname built from segments, a bucket name and an object path gives
      that path back, provided the bucket is the one the search settles on. */
  lemma StoragePathRoundTrip(segments: seq<string>, bucket: string, path: string)
    requires bucket == PrimaryBucket || bucket == LegacyBucket
    requires forall i :: 0 <= i < |segments| ==>
               '/' !in segments[i] && segments[i] != bucket && segments[i] != PrimaryBucket
    requires bucket == LegacyBucket ==> PrimaryBucket !in Split(path, '/')
    ensures StoragePath(Join(segments + [bucket], '/') + "/" + path) == Some(path)
  {
    var rest := Split(path, '/');
    var k := |segments|;
    var parts := segments + [bucket] + rest;
    SplitOfBuiltPath(segments + [bucket], path);
    BucketIndexAt(parts, k, bucket);
    assert parts[k + 1..] == rest;
  }

  /** Joining parts free of `/`, appending `/` and a path, and splitting
      again gives the parts followed by the path's own parts. */
  lemma SplitOfBuiltPath(front: seq<string>, path: string)
    requires |front| >= 1
    requires forall i :: 0 <= i < |front| ==> '/' !in front[i]
    ensures Split(Join(front, '/') + "/" + path, '/') == front + Split(path, '/')
  {
    var rest := Split(path, '/');
    var parts := front + rest;
    JoinAppend(front, rest, '/');
    forall i | 0 <= i < |parts| ensures '/' !in parts[i] {
      if i >= |front| { assert parts[i] == rest[i - |front|]; }
    }
    SplitJoin(parts, '/');
  }

  /** The bucket search settles on part `k` when it holds the bucket and no
      earlier part holds either name. */
  lemma BucketIndexAt(parts: seq<string>, k: nat, bucket: string)
    requires k < |parts| && parts[k] == bucket
    requires bucket == PrimaryBucket || bucket == LegacyBucket
    requires forall j :: 0 <= j < k ==> parts[j] != bucket && parts[j] != PrimaryBucket
    requires bucket == LegacyBucket ==> PrimaryBucket !in parts[k + 1..]
    ensures BucketIndex(parts) == k
  {
    if bucket == LegacyBucket {
      forall i | k < i < |parts| ensures parts[i] != PrimaryBucket {
        assert parts[i] == parts[k + 1..][i - k - 1];
      }
    }
  }

  /** A pathname naming both buckets is cut at `recipe-images`, even when
      `recipe_images` comes first. */
  lemma PrimaryBucketWins(path: string)
    ensures StoragePath("/" + LegacyBucket + "/" + PrimaryBucket + "/" + path) == Some(path)
  {
    var segments := ["", LegacyBucket];
    assert Join(segments + [PrimaryBucket], '/') == "/" + LegacyBucket + "/" + PrimaryBucket by {
      assert (segments + [PrimaryBucket])[1..] == [LegacyBucket, PrimaryBucket];
      assert [LegacyBucket, PrimaryBucket][1..] == [PrimaryBucket];
      assert Join([LegacyBucket, PrimaryBucket], '/') == LegacyBucket + "/" + PrimaryBucket;
      assert "" + "/" + (LegacyBucket + "/" + PrimaryBucket) == "/" + LegacyBucket + "/" + PrimaryBucket;
    }
    assert '/' !in LegacyBucket;
    StoragePathRoundTrip(segments, PrimaryBucket, path);
  }

  /** A bucket name in the last segment yields no path. */
  lemma BucketAsLastSegment()
    ensures StoragePath("/" + PrimaryBucket) == None
  {
    assert '/' !in PrimaryBucket;
    SplitAtSeparator("", '/', PrimaryBucket);
    SplitWithoutSeparator(PrimaryBucket, '/');
    assert Split("/" + PrimaryBucket, '/') == ["", PrimaryBucket] by {
      assert "" + "/" + PrimaryBucket == "/" + PrimaryBucket;
    }
  }

  // ----- The fallback when no object path is read -----

  /** One removal the page attempts. */
  datatype DeleteTarget = DeleteTarget(bucket: string, path: string)

  /** The URL's last `/`-separated segment: the last part of its split. */
  function LastSegment(url: string): (f: string)
    ensures '/' !in f && |f| <= |url| && url[|url| - |f|..] == f
    ensures |f| == |url| || url[|url| - |f| - 1] == '/'
  {
    var parts := Split(url, '/');
    LastPartIsSuffix(url, '/');
    parts[|parts| - 1]
  }

  /** The removals tried when no object path is read from the pathname (no
      bucket segment, or the bucket is the last segment): only if the last
      segment is non-empty and contains a `.`, then both buckets in order,
      each with the bare file name and then the `<user id>/<file name>` path. */
  function FallbackTargets(imageUrl: string, userId: string): (r: seq<DeleteTarget>)
    ensures r == [] <==> LastSegment(imageUrl) == "" || '.' !in LastSegment(imageUrl)
    ensures r != [] ==>
              (&& |r| == 4
               && r[0].bucket == r[1].bucket == PrimaryBucket
               && r[2].bucket == r[3].bucket == LegacyBucket
               && r[0].path == r[2].path == LastSegment(imageUrl)
               && r[1].path == r[3].path == userId + "/" + LastSegment(imageUrl))
  {
    var f := LastSegment(imageUrl);
    if f != "" && '.' in f then
      [DeleteTarget(PrimaryBucket, f), DeleteTarget(PrimaryBucket, userId + "/" + f),
       DeleteTarget(LegacyBucket, f), DeleteTarget(LegacyBucket, userId + "/" + f)]
    else []
  }

  /** The removals tried before uploading a replacement image. `pathname` is
      the parsed URL's pathname, None when the URL does not parse (the page
      catches that error and deletes nothing). A found path is tried in
      `recipe-images`, then in `recipe_images`. */
  function OldImageTargets(hasNewImage: bool, currentImageUrl: string, pathname: Option<string>,
                           userId: string): (r: seq<DeleteTarget>)
    ensures !hasNewImage || currentImageUrl == "" || pathname.None? ==> r == []
    ensures hasNewImage && currentImageUrl != "" && pathname.Some? && StoragePath(pathname.value).Some? ==>
              r == [DeleteTarget(PrimaryBucket, StoragePath(pathname.value).value),
                    DeleteTarget(LegacyBucket, StoragePath(pathname.value).value)]
    ensures hasNewImage && currentImageUrl != "" && pathname.Some? && StoragePath(pathname.value).None? ==>
              r == FallbackTargets(currentImageUrl, userId)
  {
    if !hasNewImage || currentImageUrl == "" then []
    else match pathname
      case None => []
      case Some(p) =>
        match StoragePath(p)
        case Some(path) => [DeleteTarget(PrimaryBucket, path), DeleteTarget(LegacyBucket, path)]
        case None => FallbackTargets(currentImageUrl, userId)
  }

  /** Nothing is removed unless a new image replaces an old one whose URL
      parses, and every removal names one of the two buckets and a path the
      URL names: the text after a `/` that ends the pathname (a path read
      after the bucket), or, when no bucket segment is found or it is the last
      segment, a path ending in the URL's last segment. */
  lemma OldImageTargetsNamedByUrl(hasNewImage: bool, currentImageUrl: string, pathname: Option<string>,
                                  userId: string, t: DeleteTarget)
    requires t in OldImageTargets(hasNewImage, currentImageUrl, pathname, userId)
    ensures hasNewImage && currentImageUrl != "" && pathname.Some?
    ensures t.bucket == PrimaryBucket || t.bucket == LegacyBucket
    ensures var p := pathname.value;
            || (|t.path| < |p| && p[|p| - |t.path|..] == t.path && p[|p| - |t.path| - 1] == '/')
            || (StoragePath(p).None? && t in FallbackTargets(currentImageUrl, userId))
  {
    var p := pathname.value;
    if StoragePath(p).Some? {
      var prefix, bucket := StoragePathIsSuffix(p);
      var path := StoragePath(p).value;
      assert t.path == path;
      var q := prefix + bucket;
      assert p == q + "/" + path;
      assert p[|p| - |path|..] == path;
      assert p[|p| - |path| - 1] == '/';
    } else {
      TargetsEndInFileName(currentImageUrl, userId, t);
    }
  }

  /** The removals actually made, given which ones the storage service
      accepts: each target in turn until the first accepted one. */
  function Attempted(targets: seq<DeleteTarget>, accepts: DeleteTarget -> bool): (tried: seq<DeleteTarget>)
    ensures |tried| <= |targets| && tried == targets[..|tried|]
    ensures forall i :: 0 <= i < |tried| - 1 ==> !accepts(tried[i])
    ensures |tried| < |targets| ==> |tried| > 0 && accepts(tried[|tried| - 1])
    decreases |targets|
  {
    if |targets| == 0 then []
    else if accepts(targets[0]) then [targets[0]]
    else [targets[0]] + Attempted(targets[1..], accepts)
  }

  /** Every guessed path ends in the URL's last segment, which names a file. */
  lemma {:induction false} TargetsEndInFileName(currentImageUrl: string, userId: string, t: DeleteTarget)
    requires t in FallbackTargets(currentImageUrl, userId)
    ensures t.bucket == PrimaryBucket || t.bucket == LegacyBucket
    ensures var f := LastSegment(currentImageUrl);
      && |f| <= |t.path| && t.path[|t.path| - |f|..] == f && f != "" && '.' in f
  {
    var f := LastSegment(currentImageUrl);
    var r := FallbackTargets(currentImageUrl, userId);
    var g := userId + "/" + f;
    assert f != "" && '.' in f;
    assert (t.path == f || t.path == g) && (t.bucket == PrimaryBucket || t.bucket == LegacyBucket) by {
      assert r == [DeleteTarget(PrimaryBucket, f), DeleteTarget(PrimaryBucket, g),
                   DeleteTarget(LegacyBucket, f), DeleteTarget(LegacyBucket, g)];
    }
    if t.path == g {
      assert g[|g| - |f|..] == f by {
        assert |g| - |f| == |userId| + 1;
      }
    } else {
      assert t.path[|t.path| - |f|..] == f;
    }
  }
}

=== FILE: recipe_forms.dfy ===
/**
  The pure parts of the create and edit recipe pages, lifted out of their
  state handlers: the ingredient and step lists (add, guarded remove, replace
  at an index) and the checks and cleaning done on submit. The two pages share
  the list operations; their submit handlers differ in the order of checks,
  the category test and whether entries are trimmed.
*/
module RecipeForms {
  import opened Wrappers
  import opened Sequences
  import opened Strings

  // ----- Entry lists -----

  /** A fresh form holds one empty entry. */
  const InitialEntries: seq<string> := [""]

  /** Adds an empty entry at the end. */
  function AddEntry(entries: seq<string>): (r: seq<string>)
    ensures |r| == |entries| + 1
    ensures r[..|entries|] == entries && r[|entries|] == ""
  {
    entries + [""]
  }

  /** Drops the entry at position `index` and keeps the others in order;
      defined by walking the list from the back. */
  function WithoutIndex(entries: seq<string>, index: int): (r: seq<string>)
    ensures 0 <= index < |entries| ==> r == entries[..index] + entries[index + 1..]
    ensures !(0 <= index < |entries|) ==> r == entries
    decreases |entries|
  {
    if |entries| == 0 then []
    else
      var last := |entries| - 1;
      var init := entries[..last];
      var rest := WithoutIndex(init, index);
      if index == last then
        assert entries[..index] == init;
        rest
      else
        assert 0 <= index < last ==>
          (init[..index] == entries[..index] && init[index + 1..] + [entries[last]] == entries[index + 1..]);
        assert entries == init + [entries[last]];
        rest + [entries[last]]
  }

  /** `removeIngredient(index)` / `removeStep(index)`: the entry goes only
      when more than one is left, so a non-empty list stays non-empty. */
  function RemoveEntry(entries: seq<string>, index: int): (r: seq<string>)
    ensures |entries| > 1 && 0 <= index < |entries| ==> r == entries[..index] + entries[index + 1..]
    ensures |entries| <= 1 || !(0 <= index < |entries|) ==> r == entries
    ensures |entries| >= 1 ==> |r| >= 1
  {
    if |entries| > 1 then WithoutIndex(entries, index) else entries
  }

  /** `handleIngredientChange(index, value)` / `updateIngredient(index, value)`
      and their step twins: only the entry at `index` changes. */
  function ReplaceEntry(entries: seq<string>, index: int, value: string): (r: seq<string>)
    requires 0 <= index < |entries|
    ensures |r| == |entries| && r[index] == value
    ensures forall j :: 0 <= j < |entries| && j != index ==> r[j] == entries[j]
  {
    entries[..index] + [value] + entries[index + 1..]
  }

  /** One user action on a list. */
  datatype EntryEdit = Append | Remove(index: int) | Change(index: int, value: string)

  /** The form only offers changes to entries it renders. */
  predicate EditFits(entries: seq<string>, edit: EntryEdit) {
    edit.Change? ==> 0 <= edit.index < |entries|
  }

  function ApplyEdit(entries: seq<string>, edit: EntryEdit): seq<string>
    requires EditFits(entries, edit)
  {
    match edit
    case Append => AddEntry(entries)
    case Remove(i) => RemoveEntry(entries, i)
    case Change(i, v) => ReplaceEntry(entries, i, v)
  }

  /** Every edit in the sequence fits the list it is applied to. */
  predicate EditsFit(entries: seq<string>, edits: seq<EntryEdit>)
    decreases |edits|
  {
    |edits| == 0 || (EditFits(entries, edits[0]) && EditsFit(ApplyEdit(entries, edits[0]), edits[1..]))
  }

  function ApplyEdits(entries: seq<string>, edits: seq<EntryEdit>): seq<string>
    requires EditsFit(entries, edits)
    decreases |edits|
  {
    if |edits| == 0 then entries else ApplyEdits(ApplyEdit(entries, edits[0]), edits[1..])
  }

  /** Starting from a non-empty list (such as the initial `['']`), no
      sequence of adds, removes and changes empties it. */
  lemma {:induction false} NeverEmpty(entries: seq<string>, edits: seq<EntryEdit>)
    requires |entries| >= 1 && EditsFit(entries, edits)
    ensures |ApplyEdits(entries, edits)| >= 1
    decreases |edits|
  {
    if |edits| > 0 {
      NeverEmpty(ApplyEdit(entries, edits[0]), edits[1..]);
    }
  }

  /** The lists the edit page starts from: the stored list, or one empty
      entry when none is stored.
      A stored empty list is truthy and is kept as it is. */
  function LoadedEntries(stored: Option<seq<string>>): (r: seq<string>)
    ensures stored.None? ==> r == InitialEntries
    ensures stored.Some? ==> r == stored.value
  {
    stored.GetOr(InitialEntries)
  }

  /** A recipe stored without a list opens with one empty entry, and like
      any non-empty stored list it can then not be edited down to nothing. */
  lemma LoadedListsStayFilled(stored: Option<seq<string>>, edits: seq<EntryEdit>)
    requires stored.None? || |stored.value| >= 1
    requires EditsFit(LoadedEntries(stored), edits)
    ensures stored.None? ==> LoadedEntries(stored) == [""]
    ensures |ApplyEdits(LoadedEntries(stored), edits)| >= 1
  {
    NeverEmpty(LoadedEntries(stored), edits);
  }

  /** So the edit page can show an empty list, and removing from it changes
      nothing. */
  lemma LoadedEmptyListStaysEmpty(index: int)
    ensures LoadedEntries(Some([])) == []
    ensures RemoveEntry(LoadedEntries(Some([])), index) == []
  {
  }

  // ----- Submit-time checks and cleaning -----

  predicate IsFilledEntry(s: string) { !IsBlank(s) }

  /** At least one entry is not blank. */
  predicate HasFilledEntry(entries: seq<string>) {
    exists i :: 0 <= i < |entries| && IsFilledEntry(entries[i])
  }

  /** The non-blank entries, in order. The create page compares the trimmed
      entry with the empty string and the edit page tests its truthiness: the
      same filter. */
  function FilledEntries(entries: seq<string>): (r: seq<string>)
    ensures forall i :: 0 <= i < |r| ==> !IsBlank(r[i])
    ensures |r| > 0 <==> HasFilledEntry(entries)
  {
    FilterEmpty(IsFilledEntry, entries);
    Filter(IsFilledEntry, entries)
  }

  /** The filter keeps the order: it splits over concatenation and keeps a
      single entry exactly when it is not blank. */
  lemma FilledEntriesInOrder(a: seq<string>, b: seq<string>, x: string)
    ensures FilledEntries(a + b) == FilledEntries(a) + FilledEntries(b)
    ensures FilledEntries([x]) == if IsBlank(x) then [] else [x]
  {
    FilterAppend(IsFilledEntry, a, b);
    assert [x][1..] == [];
  }

  /** The create page's cleaning: the non-blank entries, each trimmed. */
  function CleanEntries(entries: seq<string>): (r: seq<string>)
    ensures |r| == |FilledEntries(entries)|
    ensures forall i :: 0 <= i < |r| ==> r[i] == Trim(FilledEntries(entries)[i])
    ensures forall i :: 0 <= i < |r| ==> r[i] != "" && Trim(r[i]) == r[i]
  {
    var filled := FilledEntries(entries);
    forall i | 0 <= i < |filled| ensures Trim(Trim(filled[i])) == Trim(filled[i]) {
      TrimIdempotent(filled[i]);
    }
    Map(Trim, filled)
  }

  /** Cleaning a cleaned list changes nothing. */
  lemma CleanEntriesIdempotent(entries: seq<string>)
    ensures CleanEntries(CleanEntries(entries)) == CleanEntries(entries)
  {
    var c := CleanEntries(entries);
    assert forall i :: 0 <= i < |c| ==> !IsBlank(c[i]);
    FilterKeepsAll(IsFilledEntry, c);
  }

  /** What a successful submit stores. */
  datatype RecipeDraft = RecipeDraft(title: string, category: string, ingredients: seq<string>, steps: seq<string>)

  /** The result of a submit: nothing happens, an error message is shown, or
      the draft is sent to the database. */
  datatype SubmitOutcome = Ignored | Rejected(message: string) | Saved(draft: RecipeDraft)

  const SignInRequired := "Please sign in to create a recipe"
  const FieldsRequired := "Please fill in all required fields and add at least one ingredient and one step"

  /** The create page's `handleSubmit` up to the insert: one combined check,
      then everything stored trimmed. */
  function CreateSubmit(signedIn: bool, title: string, category: string,
                        ingredients: seq<string>, steps: seq<string>): (out: SubmitOutcome)
    ensures !signedIn ==> out == Rejected(SignInRequired)
    ensures signedIn ==>
              (out.Saved? <==> !IsBlank(title) && !IsBlank(category) && HasFilledEntry(ingredients) && HasFilledEntry(steps))
    ensures signedIn && !out.Saved? ==> out == Rejected(FieldsRequired)
    ensures out.Saved? ==>
              && out.draft.title == Trim(title) && out.draft.category == Trim(category)
              && out.draft.ingredients == Map(Trim, FilledEntries(ingredients))
              && out.draft.steps == Map(Trim, FilledEntries(steps))
  {
    if !signedIn then Rejected(SignInRequired)
    else
      var validIngredients := FilledEntries(ingredients);
      var validSteps := FilledEntries(steps);
      if IsBlank(title) || IsBlank(category) || |validIngredients| == 0 || |validSteps| == 0 then
        Rejected(FieldsRequired)
      else
        Saved(RecipeDraft(Trim(title), Trim(category), CleanEntries(ingredients), CleanEntries(steps)))
  }

  const TitleRequired := "Recipe title is required"
  const CategoryRequired := "Please select a category"
  const IngredientRequired := "At least one ingredient is required"
  const StepRequired := "At least one step is required"

  /** The edit page's `handleSubmit` up to the update: four checks in a fixed
      order, the first failure wins; the category is only checked for being
      empty, and the entries are stored untrimmed. */
  function EditSubmit(signedIn: bool, title: string, category: string,
                      ingredients: seq<string>, steps: seq<string>): (out: SubmitOutcome)
    ensures !signedIn ==> out == Ignored
    ensures signedIn && IsBlank(title) ==> out == Rejected(TitleRequired)
    ensures signedIn && !IsBlank(title) && category == "" ==> out == Rejected(CategoryRequired)
    ensures signedIn && !IsBlank(title) && category != "" && !HasFilledEntry(ingredients) ==>
              out == Rejected(IngredientRequired)
    ensures signedIn && !IsBlank(title) && category != "" && HasFilledEntry(ingredients) && !HasFilledEntry(steps) ==>
              out == Rejected(StepRequired)
    ensures out.Saved? <==>
              signedIn && !IsBlank(title) && category != "" && HasFilledEntry(ingredients) && HasFilledEntry(steps)
    ensures out.Saved? ==>
              && out.draft.title == Trim(title) && out.draft.category == category
              && out.draft.ingredients == Filter(IsFilledEntry, ingredients)
              && out.draft.steps == Filter(IsFilledEntry, steps)
  {
    if !signedIn then Ignored
    else if IsBlank(title) then Rejected(TitleRequired)
    else if category == "" then Rejected(CategoryRequired)
    else
      var validIngredients := FilledEntries(ingredients);
      if |validIngredients| == 0 then Rejected(IngredientRequired)
      else
        var validSteps := FilledEntries(steps);
        if |validSteps| == 0 then Rejected(StepRequired)
        else Saved(RecipeDraft(Trim(title), category, validIngredients, validSteps))
  }

  /** The two pages agree up to trimming: whatever the create page accepts,
      the edit page accepts, and the create page stores the edit page's
      entries trimmed. The converse holds when the category is not blank. */
  lemma CreateAndEditAgree(title: string, category: string, ingredients: seq<string>, steps: seq<string>)
    ensures var c := CreateSubmit(true, title, category, ingredients, steps);
            var e := EditSubmit(true, title, category, ingredients, steps);
            && (c.Saved? ==>
                  (&& e.Saved?
                   && c.draft.title == e.draft.title
                   && c.draft.category == Trim(e.draft.category)
                   && c.draft.ingredients == Map(Trim, e.draft.ingredients)
                   && c.draft.steps == Map(Trim, e.draft.steps)))
            && (e.Saved? && !IsBlank(category) ==> c.Saved?)
  {
    if !IsBlank(category) {
      assert category != "";
    }
  }

  /** A category of spaces passes the edit page's check but not the create
      page's. */
  lemma BlankCategoryOnlyPassesEdit(title: string, category: string, ingredients: seq<string>, steps: seq<string>)
    requires category != "" && forall i :: 0 <= i < |category| ==> IsSpace(category[i])
    requires !IsBlank(title) && HasFilledEntry(ingredients) && HasFilledEntry(steps)
    ensures CreateSubmit(true, title, category, ingredients, steps) == Rejected(FieldsRequired)
    ensures EditSubmit(true, title, category, ingredients, steps).Saved?
  {
    BlankIffAllSpace(category);
  }
}

=== FILE: sequences.dfy ===
/**
  Generic sequence operations shared by the string helpers and the recipe
  forms: the `filter`, `map` and leading/trailing "drop while" steps that the
  JavaScript code performs with array methods and anchored regular expressions.
*/
module Sequences {

  /** Keeps the elements that satisfy `p`, in their original order. */
  function Filter<T>(p: T -> bool, xs: seq<T>): (r: seq<T>)
    ensures |r| <= |xs|
    ensures forall i :: 0 <= i < |r| ==> p(r[i])
    ensures forall i :: 0 <= i < |r| ==> r[i] in xs
  {
    if |xs| == 0 then []
    else
      var rest := Filter(p, xs[1..]);
      assert forall i :: 0 <= i < |rest| ==> rest[i] in xs by {
        forall i | 0 <= i < |rest| ensures rest[i] in xs {
          assert rest[i] in xs[1..];
        }
      }
      (if p(xs[0]) then [xs[0]] else []) + rest
  }

  /** Applies `f` to every element. */
  function Map<T, U>(f: T -> U, xs: seq<T>): (r: seq<U>)
    ensures |r| == |xs|
    ensures forall i :: 0 <= i < |xs| ==> r[i] == f(xs[i])
  {
    seq(|xs|, i requires 0 <= i < |xs| => f(xs[i]))
  }

  /** The end of the run of elements satisfying `p` that starts at `from`. */
  function RunEnd<T>(p: T -> bool, xs: seq<T>, from: nat): (n: nat)
    requires from <= |xs|
    ensures from <= n <= |xs|
    ensures forall i :: from <= i < n ==> p(xs[i])
    ensures n < |xs| ==> !p(xs[n])
    decreases |xs| - from
  {
    if from < |xs| && p(xs[from]) then RunEnd(p, xs, from + 1) else from
  }

  /** The start of the run of elements satisfying `p` that ends at `end`. */
  function RunStart<T>(p: T -> bool, xs: seq<T>, end: nat): (n: nat)
    requires end <= |xs|
    ensures n <= end
    ensures forall i :: n <= i < end ==> p(xs[i])
    ensures n > 0 ==> !p(xs[n - 1])
    decreases end
  {
    if end > 0 && p(xs[end - 1]) then RunStart(p, xs, end - 1) else end
  }

  /** Removes the longest prefix whose elements all satisfy `p`. */
  function DropWhile<T>(p: T -> bool, xs: seq<T>): (r: seq<T>)
    ensures |r| <= |xs| && r == xs[|xs| - |r|..]
    ensures forall i :: 0 <= i < |xs| - |r| ==> p(xs[i])
    ensures |r| > 0 ==> !p(r[0])
  {
    xs[RunEnd(p, xs, 0)..]
  }

  /** The prefix `DropWhile` removes is the one that ends at the first
      element failing `p`. */
  lemma DropWhileIs<T>(p: T -> bool, xs: seq<T>, k: int)
    requires 0 <= k <= |xs|
    requires forall i :: 0 <= i < k ==> p(xs[i])
    requires k < |xs| ==> !p(xs[k])
    ensures DropWhile(p, xs) == xs[k..]
  {
    var n := RunEnd(p, xs, 0);
    assert n == k;
  }

  lemma DropWhileCons<T>(p: T -> bool, xs: seq<T>)
    requires |xs| > 0 && p(xs[0])
    ensures DropWhile(p, xs) == DropWhile(p, xs[1..])
  {
    var r := DropWhile(p, xs[1..]);
    var k := |xs| - |r|;
    forall i | 0 <= i < k ensures p(xs[i]) {
      if i > 0 { assert xs[i] == xs[1..][i - 1]; }
    }
    assert xs[k..] == r;
    DropWhileIs(p, xs, k);
  }

  /** Removes the longest suffix whose elements all satisfy `p`. */
  function DropLastWhile<T>(p: T -> bool, xs: seq<T>): (r: seq<T>)
    ensures |r| <= |xs| && r == xs[..|r|]
    ensures forall i :: |r| <= i < |xs| ==> p(xs[i])
    ensures |r| > 0 ==> !p(r[|r| - 1])
  {
    xs[..RunStart(p, xs, |xs|)]
  }

  /** The suffix `DropLastWhile` removes is the one that starts after the
      last element failing `p`. */
  lemma DropLastWhileIs<T>(p: T -> bool, xs: seq<T>, k: int)
    requires 0 <= k <= |xs|
    requires forall i :: k <= i < |xs| ==> p(xs[i])
    requires k > 0 ==> !p(xs[k - 1])
    ensures DropLastWhile(p, xs) == xs[..k]
  {
    var n := RunStart(p, xs, |xs|);
    assert n == k;
  }

  lemma DropLastWhileSnoc<T>(p: T -> bool, xs: seq<T>)
    requires |xs| > 0 && p(xs[|xs| - 1])
    ensures DropLastWhile(p, xs) == DropLastWhile(p, xs[..|xs| - 1])
  {
    var init := xs[..|xs| - 1];
    var r := DropLastWhile(p, init);
    forall i | |r| <= i < |xs| ensures p(xs[i]) {
      if i < |xs| - 1 { assert xs[i] == init[i]; }
    }
    assert xs[..|r|] == r;
    DropLastWhileIs(p, xs, |r|);
  }

  /** A leading run stops where the appended part begins when that part does
      not start with an element satisfying `p`. */
  lemma DropWhileAppend<T>(p: T -> bool, xs: seq<T>, ys: seq<T>)
    requires |ys| == 0 || !p(ys[0])
    ensures DropWhile(p, xs + ys) == DropWhile(p, xs) + ys
  {
    var d := DropWhile(p, xs);
    var k := |xs| - |d|;
    var zs := xs + ys;
    forall i | 0 <= i < k ensures p(zs[i]) {
      assert zs[i] == xs[i];
    }
    if k < |zs| {
      assert zs[k] == if k < |xs| then d[0] else ys[0];
    }
    DropWhileIs(p, zs, k);
    assert zs[k..] == d + ys;
  }

  /** Every element satisfies `p`. */
  predicate All<T>(p: T -> bool, xs: seq<T>) { forall i :: 0 <= i < |xs| ==> p(xs[i]) }

  lemma AllAppend<T>(p: T -> bool, a: seq<T>, b: seq<T>)
    ensures All(p, a + b) <==> All(p, a) && All(p, b)
  {
    if All(p, a) && All(p, b) {
      forall i | 0 <= i < |a + b| ensures p((a + b)[i]) {
        if i >= |a| { assert (a + b)[i] == b[i - |a|]; }
      }
    }
    if All(p, a + b) {
      forall i | 0 <= i < |a| ensures p(a[i]) {
        assert (a + b)[i] == a[i];
      }
      forall i | 0 <= i < |b| ensures p(b[i]) {
        assert (a + b)[|a| + i] == b[i];
      }
    }
  }

  lemma AllSlice<T>(p: T -> bool, xs: seq<T>, lo: int, hi: int)
    requires 0 <= lo <= hi <= |xs|
    ensures All(p, xs) ==> All(p, xs[lo..hi])
  {
    if All(p, xs) {
      forall i | 0 <= i < hi - lo ensures p(xs[lo..hi][i]) {
        assert xs[lo..hi][i] == xs[lo + i];
      }
    }
  }

  /** Filtering distributes over concatenation: together with the behaviour
      on one element this determines `Filter` completely. */
  lemma {:induction false} FilterAppend<T>(p: T -> bool, a: seq<T>, b: seq<T>)
    ensures Filter(p, a + b) == Filter(p, a) + Filter(p, b)
    decreases |a|
  {
    if |a| == 0 {
      assert a + b == b;
    } else {
      assert (a + b)[1..] == a[1..] + b;
      FilterAppend(p, a[1..], b);
    }
  }

  /** Filtering one element in front of a sequence. */
  lemma FilterCons<T>(p: T -> bool, x: T, xs: seq<T>)
    ensures Filter(p, [x] + xs) == (if p(x) then [x] else []) + Filter(p, xs)
  {
    assert ([x] + xs)[1..] == xs;
  }

  /** Filtering keeps a sequence unchanged exactly when every element passes. */
  lemma {:induction false} FilterKeepsAll<T>(p: T -> bool, xs: seq<T>)
    ensures Filter(p, xs) == xs <==> forall i :: 0 <= i < |xs| ==> p(xs[i])
    decreases |xs|
  {
    if |xs| > 0 {
      FilterKeepsAll(p, xs[1..]);
      if !p(xs[0]) {
        assert |Filter(p, xs)| < |xs|;
      }
    }
  }

  /** Filtering yields nothing exactly when no element passes. */
  lemma {:induction false} FilterEmpty<T>(p: T -> bool, xs: seq<T>)
    ensures Filter(p, xs) == [] <==> forall i :: 0 <= i < |xs| ==> !p(xs[i])
    decreases |xs|
  {
    if |xs| > 0 {
      FilterEmpty(p, xs[1..]);
      if !p(xs[0]) {
        forall i | 1 <= i < |xs| ensures xs[i] == xs[1..][i - 1] { }
      }
    }
  }

  /** Dropping a leading run of elements that `p` rejects anyway does not
      change what `p` keeps. */
  lemma {:induction false} FilterDropWhile<T>(p: T -> bool, q: T -> bool, xs: seq<T>)
    requires forall i :: 0 <= i < |xs| && q(xs[i]) ==> !p(xs[i])
    ensures Filter(p, DropWhile(q, xs)) == Filter(p, xs)
    decreases |xs|
  {
    if |xs| > 0 && q(xs[0]) {
      DropWhileCons(q, xs);
      FilterDropWhile(p, q, xs[1..]);
    } else {
      DropWhileIs(q, xs, 0);
      assert xs[0..] == xs;
    }
  }

  /** Dropping a trailing run of elements that `p` rejects anyway does not
      change what `p` keeps. */
  lemma {:induction false} FilterDropLastWhile<T>(p: T -> bool, q: T -> bool, xs: seq<T>)
    requires forall i :: 0 <= i < |xs| && q(xs[i]) ==> !p(xs[i])
    ensures Filter(p, DropLastWhile(q, xs)) == Filter(p, xs)
    decreases |xs|
  {
    if |xs| > 0 && q(xs[|xs| - 1]) {
      var init := xs[..|xs| - 1];
      var last := xs[|xs| - 1];
      DropLastWhileSnoc(q, xs);
      assert forall i :: 0 <= i < |init| ==> init[i] == xs[i];
      FilterDropLastWhile(p, q, init);
      assert xs == init + [last];
      FilterAppend(p, init, [last]);
      FilterCons(p, last, []);
      assert [last] + [] == [last];
    } else {
      DropLastWhileIs(q, xs, |xs|);
      assert xs[..|xs|] == xs;
    }
  }
}

=== FILE: slug_codec.dfy ===
/**
  The recipe slug codec of urlUtils.js: `generateRecipeSlug` joins the
  normalised title to the recipe identifier, `parseRecipeSlug` recovers the
  identifier from a slug. A UUID-shaped identifier is joined with `--`, any
  other with `-`; the decoder first looks for an RFC 4122 UUID after the first
  `--`, then for a run of digits after the last `-`.
*/
module SlugCodec {
  import opened Wrappers
  import opened Strings
  import opened TitleSlugs

  /** The `id` argument as the JavaScript code meets it: a string, a number
      (integers only), a `Date` object (whose time value may be NaN), or
      `null`/`undefined`. */
  datatype RecipeId =
    | StringId(text: string)
    | NumberId(n: int)
    | DateId(time: Option<int>)
    | NoId

  /** JavaScript truthiness of the identifier: `''`, `0` and a missing value
      are falsy; every `Date` object is truthy. */
  predicate IsTruthy(id: RecipeId) {
    match id
    case StringId(s) => s != ""
    case NumberId(n) => n != 0
    case DateId(_) => true
    case NoId => false
  }

  /** The encoder's UUID test: a 36-character string containing a hyphen.
      Nothing else about the shape is checked. */
  predicate LooksLikeUuid(s: string) { |s| == 36 && '-' in s }

  predicate IsHexDigit(c: char) { IsDigit(c) || 'a' <= c <= 'f' || 'A' <= c <= 'F' }

  /** The decoder's UUID pattern: five groups of 8, 4, 4, 4 and 12 hex
      digits in either case, joined by hyphens, with version nibble 1 to 5 and
      variant nibble 8, 9, a or b (sections 4.1.3 and 4.1.1 of RFC 4122). */
  predicate IsUuid(s: string) {
    && |s| == 36
    && (forall i :: 0 <= i < 36 ==>
          if i == 8 || i == 13 || i == 18 || i == 23 then s[i] == '-' else IsHexDigit(s[i]))
    && '1' <= s[14] <= '5'
    && s[19] in "89abAB"
  }

  /** The largest time value a valid `Date` holds: 8.64e15 milliseconds,
      100,000,000 days after the epoch. */
  const MaxTimeValue: int := 8_640_000_000_000_000

  /** A non-empty run of decimal digits: the decoder's timestamp pattern. */
  predicate IsDigitRun(s: string) { |s| > 0 && AllDigits(s) }

  /** The text the encoder puts after a single hyphen: the time value of a
      `Date` object or of a string `Date.parse` accepts, otherwise `String(id)`.
      `parseDate` stands for `Date.parse`, with None for NaN. */
  function IdValue(id: RecipeId, parseDate: string -> Option<int>): (v: string)
    requires IsTruthy(id)
    ensures |v| > 0
  {
    match id
    case StringId(s) => if parseDate(s).Some? then IntToDecimal(parseDate(s).value) else s
    case NumberId(n) => IntToDecimal(n)
    case DateId(t) => if t.Some? then IntToDecimal(t.value) else "NaN"
    case NoId => ""
  }

  /** `generateRecipeSlug(title, id)`. The slug is empty exactly when the
      title or the id is falsy; otherwise it starts with the normalised title
      followed by a hyphen. */
  function GenerateRecipeSlug(title: string, id: RecipeId, parseDate: string -> Option<int>): (slug: string)
    ensures slug == "" <==> title == "" || !IsTruthy(id)
    ensures slug != "" ==>
              var t := TitleSlug(title);
              |slug| > |t| + 1 && slug[..|t|] == t && slug[|t|] == '-'
    ensures slug != "" && id.StringId? && LooksLikeUuid(id.text) ==>
              var t := TitleSlug(title);
              slug[|t| + 1] == '-' && slug[|t| + 2..] == id.text
    ensures slug != "" && !(id.StringId? && LooksLikeUuid(id.text)) ==>
              slug[|TitleSlug(title)| + 1..] == IdValue(id, parseDate)
  {
    if title == "" || !IsTruthy(id) then ""
    else
      var t := TitleSlug(title);
      if id.StringId? && LooksLikeUuid(id.text) then
        assert (t + "--" + id.text)[..|t|] == t;
        assert (t + "--" + id.text)[|t| + 2..] == id.text;
        t + "--" + id.text
      else
        var v := IdValue(id, parseDate);
        assert (t + "-" + v)[..|t|] == t;
        assert (t + "-" + v)[|t| + 1..] == v;
        t + "-" + v
  }

  /** `s.indexOf('--')`, searching from position `from`. */
  function FirstDoubleHyphenFrom(s: string, from: nat): (r: Option<nat>)
    ensures r.Some? ==> from <= r.value && DoubleHyphenAt(s, r.value)
    ensures forall j :: from <= j < |s| - 1 && (r.None? || j < r.value) ==> !DoubleHyphenAt(s, j)
    decreases |s| - from
  {
    if from + 1 >= |s| then None
    else if DoubleHyphenAt(s, from) then Some(from)
    else FirstDoubleHyphenFrom(s, from + 1)
  }

  /** `s.lastIndexOf(c)` */
  function LastIndexOf(s: string, c: char): (r: Option<nat>)
    ensures r.Some? ==> r.value < |s| && s[r.value] == c
    ensures forall j :: 0 <= j < |s| && (r.None? || r.value < j) ==> s[j] != c
  {
    LastIndexBefore(s, c, |s|)
  }

  /** The last position of `c` below `end`. */
  function LastIndexBefore(s: string, c: char, end: nat): (r: Option<nat>)
    requires end <= |s|
    ensures r.Some? ==> r.value < end && s[r.value] == c
    ensures forall j :: 0 <= j < end && (r.None? || r.value < j) ==> s[j] != c
    decreases end
  {
    if end == 0 then None
    else if s[end - 1] == c then Some(end - 1)
    else LastIndexBefore(s, c, end - 1)
  }

  /** Step 1 of `parseRecipeSlug`: the text after the first `--`, if it is a UUID. */
  function UuidAfterDoubleHyphen(slug: string): Option<string> {
    match FirstDoubleHyphenFrom(slug, 0)
    case Some(i) => if IsUuid(slug[i + 2..]) then Some(slug[i + 2..]) else None
    case None => None
  }

  /** `parseRecipeSlug(slug)`: the identifier, or `''` when none is found.
      A found identifier is a suffix of the slug, and it is either a UUID or a
      run of digits. */
  function ParseRecipeSlug(slug: string): (id: string)
    ensures slug == "" || '-' !in slug ==> id == ""
    ensures id != "" ==> |id| < |slug| && slug[|slug| - |id|..] == id && slug[|slug| - |id| - 1] == '-'
    ensures id != "" ==> IsUuid(id) || IsDigitRun(id)
  {
    if slug == "" then ""
    else if UuidAfterDoubleHyphen(slug).Some? then UuidAfterDoubleHyphen(slug).value
    else
      match LastIndexOf(slug, '-')
      case None => ""
      case Some(j) => if IsDigitRun(slug[j + 1..]) then slug[j + 1..] else ""
  }

  // ----- Round trips -----

  lemma UuidIsNotDigits(u: string)
    requires IsUuid(u)
    ensures !AllDigits(u) && '-' in u
  {
    assert u[8] == '-';
  }

  /** Pins down `indexOf('--')` from the positions of the hyphens. */
  lemma FirstDoubleHyphenIs(s: string, i: nat)
    requires DoubleHyphenAt(s, i)
    requires forall j :: 0 <= j < i ==> !DoubleHyphenAt(s, j)
    ensures FirstDoubleHyphenFrom(s, 0) == Some(i)
  {
  }

  lemma FirstDoubleHyphenNone(s: string)
    requires NoDoubleHyphen(s)
    ensures FirstDoubleHyphenFrom(s, 0) == None
  {
  }

  /** Pins down `lastIndexOf(c)` from the position of the last `c`. */
  lemma LastIndexOfIs(s: string, c: char, j: nat)
    requires j < |s| && s[j] == c
    requires forall k :: j < k < |s| ==> s[k] != c
    ensures LastIndexOf(s, c) == Some(j)
  {
  }

  /** The decoder when the slug holds no `--`: only the last-hyphen rule applies. */
  lemma ParseWithoutDoubleHyphen(slug: string, j: nat)
    requires FirstDoubleHyphenFrom(slug, 0) == None && LastIndexOf(slug, '-') == Some(j)
    ensures ParseRecipeSlug(slug) == if IsDigitRun(slug[j + 1..]) then slug[j + 1..] else ""
  {
    assert slug != "";
    assert UuidAfterDoubleHyphen(slug) == None;
  }

  /** The decoder when the text after the first `--` is not a UUID. */
  lemma ParseAfterNonUuid(slug: string, i: nat, j: nat)
    requires FirstDoubleHyphenFrom(slug, 0) == Some(i) && !IsUuid(slug[i + 2..])
    requires LastIndexOf(slug, '-') == Some(j)
    ensures ParseRecipeSlug(slug) == if IsDigitRun(slug[j + 1..]) then slug[j + 1..] else ""
  {
    assert slug != "";
    assert UuidAfterDoubleHyphen(slug) == None;
  }

  // ----- What the decoder finds, stated by positions -----

  /** The first `--` of the slug is at `i` and a UUID fills the rest. */
  predicate UuidAfterFirstDoubleHyphen(slug: string, i: int) {
    && DoubleHyphenAt(slug, i)
    && (forall j :: 0 <= j < i ==> !DoubleHyphenAt(slug, j))
    && IsUuid(slug[i + 2..])
  }

  /** A hyphen at `j` is followed by digits up to the end of the slug. */
  predicate DigitsAfterHyphen(slug: string, j: int) {
    0 <= j < |slug| && slug[j] == '-' && IsDigitRun(slug[j + 1..])
  }

  /** A UUID after the first `--` is what the decoder returns. */
  lemma ParseFindsUuid(slug: string, i: int)
    requires UuidAfterFirstDoubleHyphen(slug, i)
    ensures ParseRecipeSlug(slug) == slug[i + 2..]
  {
    FirstDoubleHyphenIs(slug, i);
  }

  /** Without such a UUID, digits after a hyphen running to the end of the
      slug are what the decoder returns. */
  lemma ParseFindsDigits(slug: string, j: int)
    requires forall i :: !UuidAfterFirstDoubleHyphen(slug, i)
    requires DigitsAfterHyphen(slug, j)
    ensures ParseRecipeSlug(slug) == slug[j + 1..]
  {
    NoUuidAfterDoubleHyphen(slug);
    DigitsHaveNoHyphen(slug[j + 1..]);
    forall k | j < k < |slug| ensures slug[k] != '-' {
      assert slug[k] == slug[j + 1..][k - j - 1];
    }
    LastIndexOfIs(slug, '-', j);
  }

  /** With neither, the decoder returns `''`. */
  lemma ParseFindsNothing(slug: string)
    requires forall i :: !UuidAfterFirstDoubleHyphen(slug, i)
    requires forall j :: !DigitsAfterHyphen(slug, j)
    ensures ParseRecipeSlug(slug) == ""
  {
    NoUuidAfterDoubleHyphen(slug);
    match LastIndexOf(slug, '-')
    case None =>
    case Some(j) => assert !DigitsAfterHyphen(slug, j);
  }

  lemma NoUuidAfterDoubleHyphen(slug: string)
    requires forall i :: !UuidAfterFirstDoubleHyphen(slug, i)
    ensures UuidAfterDoubleHyphen(slug) == None
  {
    match FirstDoubleHyphenFrom(slug, 0)
    case None =>
    case Some(i) => assert !UuidAfterFirstDoubleHyphen(slug, i);
  }

  /** A normalised title followed by `--` puts the first `--` right after the title. */
  lemma FirstDoubleHyphenAfterTitle(t: string, rest: string)
    requires IsNormalTitle(t)
    ensures FirstDoubleHyphenFrom(t + "--" + rest, 0) == Some(|t|)
  {
    var s := t + "--" + rest;
    forall j | 0 <= j < |t| ensures !DoubleHyphenAt(s, j) {
      assert s[j] == t[j];
      if j < |t| - 1 {
        assert !DoubleHyphenAt(t, j);
        assert s[j + 1] == t[j + 1];
      }
    }
    assert s[|t|] == '-' && s[|t| + 1] == '-';
    FirstDoubleHyphenIs(s, |t|);
  }

  /** A normalised title, one hyphen and a run of digits hold no `--`. */
  lemma TitleHyphenDigits(t: string, v: string)
    requires IsNormalTitle(t) && IsDigitRun(v)
    ensures NoDoubleHyphen(t + "-" + v)
  {
    var s := t + "-" + v;
    forall j | 0 <= j < |s| - 1 ensures !DoubleHyphenAt(s, j) {
      if j < |t| - 1 {
        assert !DoubleHyphenAt(t, j);
        assert s[j] == t[j] && s[j + 1] == t[j + 1];
      } else if j == |t| - 1 {
        assert s[j] == t[j];
      } else {
        assert s[j + 1] == v[j - |t|];
      }
    }
  }

  /** The last hyphen of `prefix + "-" + v` is the one before `v` when `v` has none. */
  lemma LastHyphenBefore(prefix: string, v: string)
    requires '-' !in v
    ensures LastIndexOf(prefix + "-" + v, '-') == Some(|prefix|)
  {
    var s := prefix + "-" + v;
    forall k | |prefix| < k < |s| ensures s[k] != '-' {
      assert s[k] == v[k - |prefix| - 1];
    }
    LastIndexOfIs(s, '-', |prefix|);
  }

  /** UUID round trip: for a non-empty title and an identifier matching the
      decoder's UUID pattern, decoding the slug gives the identifier back, also
      when the title normalises to nothing (slug `--<uuid>`). */
  lemma UuidRoundTrip(title: string, u: string, parseDate: string -> Option<int>)
    requires title != "" && IsUuid(u)
    ensures ParseRecipeSlug(GenerateRecipeSlug(title, StringId(u), parseDate)) == u
  {
    var t := TitleSlug(title);
    UuidIsNotDigits(u);
    var slug := GenerateRecipeSlug(title, StringId(u), parseDate);
    assert slug == t + "--" + u;
    FirstDoubleHyphenAfterTitle(t, u);
    assert slug[|t| + 2..] == u;
  }

  /** Every character of a UUID is a hex digit or a hyphen. */
  lemma UuidChars(u: string)
    requires IsUuid(u)
    ensures forall k :: 0 <= k < |u| ==> u[k] == '-' || IsHexDigit(u[k])
  {
    forall k | 0 <= k < |u| ensures u[k] == '-' || IsHexDigit(u[k]) {
      assert 0 <= k < 36;
    }
  }

  /** A slug for a UUID holds no `/`, so it stays one path segment. */
  lemma UuidSlugHasNoSlash(title: string, u: string, parseDate: string -> Option<int>)
    requires title != "" && IsUuid(u)
    ensures '/' !in GenerateRecipeSlug(title, StringId(u), parseDate)
  {
    var t := TitleSlug(title);
    UuidChars(u);
    UuidIsNotDigits(u);
    var slug := GenerateRecipeSlug(title, StringId(u), parseDate);
    assert slug == t + "--" + u;
    NoSlashInConcat(t, u);
  }

  lemma NoSlashInConcat(t: string, u: string)
    requires AllSlugChars(t)
    requires forall k :: 0 <= k < |u| ==> u[k] == '-' || IsHexDigit(u[k])
    ensures '/' !in t + "--" + u
  {
    var slug := t + "--" + u;
    forall k | 0 <= k < |slug| ensures slug[k] != '/' {
      if k < |t| {
        assert slug[k] == t[k];
      } else if k >= |t| + 2 {
        assert slug[k] == u[k - |t| - 2];
      }
    }
  }

  /** Single-hyphen round trip: when the encoder does not take the UUID
      branch and the text it appends is a run of digits, decoding gives that
      text back. */
  lemma DigitsRoundTrip(title: string, id: RecipeId, parseDate: string -> Option<int>)
    requires title != "" && IsTruthy(id)
    requires !(id.StringId? && LooksLikeUuid(id.text))
    requires IsDigitRun(IdValue(id, parseDate))
    ensures ParseRecipeSlug(GenerateRecipeSlug(title, id, parseDate)) == IdValue(id, parseDate)
  {
    var t := TitleSlug(title);
    var v := IdValue(id, parseDate);
    var slug := GenerateRecipeSlug(title, id, parseDate);
    assert slug == t + "-" + v;
    TitleHyphenDigits(t, v);
    FirstDoubleHyphenNone(slug);
    assert '-' !in v by { assert forall k :: 0 <= k < |v| ==> IsDigit(v[k]); }
    LastHyphenBefore(t, v);
    assert slug[|t| + 1..] == v;
    ParseWithoutDoubleHyphen(slug, |t|);
  }

  /** The slug of a digit-run identifier holds no `/` either. */
  lemma DigitsSlugHasNoSlash(title: string, id: RecipeId, parseDate: string -> Option<int>)
    requires title != "" && IsTruthy(id)
    requires !(id.StringId? && LooksLikeUuid(id.text))
    requires IsDigitRun(IdValue(id, parseDate))
    ensures '/' !in GenerateRecipeSlug(title, id, parseDate)
  {
    var t := TitleSlug(title);
    var v := IdValue(id, parseDate);
    var slug := GenerateRecipeSlug(title, id, parseDate);
    assert slug == t + "-" + v;
    NoSlashInTitleSlug(title);
    NoSlashInDigits(v);
  }

  lemma NoSlashInTitleSlug(title: string)
    ensures '/' !in TitleSlug(title)
  {
    var t := TitleSlug(title);
    forall k | 0 <= k < |t| ensures t[k] != '/' { assert IsSlugChar(t[k]); }
  }

  lemma NoSlashInDigits(v: string)
    requires IsDigitRun(v)
    ensures '/' !in v
  {
    forall k | 0 <= k < |v| ensures v[k] != '/' { assert IsDigit(v[k]); }
  }

  /** Timestamp round trip: a positive integer id decodes to its decimal
      text, as in "delicious-pasta-recipe-1696687200000". */
  lemma TimestampRoundTrip(title: string, n: int, parseDate: string -> Option<int>)
    requires title != "" && 0 < n <= MaxSafeInteger
    ensures ParseRecipeSlug(GenerateRecipeSlug(title, NumberId(n), parseDate)) == NatToDecimal(n)
  {
    DigitsRoundTrip(title, NumberId(n), parseDate);
  }

  /** A `Date` object with a valid, non-negative time value decodes to the
      decimal text of that time value. */
  lemma DateRoundTrip(title: string, time: nat, parseDate: string -> Option<int>)
    requires title != "" && time <= MaxTimeValue
    ensures ParseRecipeSlug(GenerateRecipeSlug(title, DateId(Some(time)), parseDate)) == NatToDecimal(time)
  {
    DigitsRoundTrip(title, DateId(Some(time)), parseDate);
  }

  /** The decoder ignores the title: two slugs for the same round-tripping
      identifier decode alike whatever their titles. */
  lemma DecodeIgnoresTitle(t1: string, t2: string, u: string, parseDate: string -> Option<int>)
    requires t1 != "" && t2 != "" && IsUuid(u)
    ensures ParseRecipeSlug(GenerateRecipeSlug(t1, StringId(u), parseDate))
         == ParseRecipeSlug(GenerateRecipeSlug(t2, StringId(u), parseDate))
  {
    UuidRoundTrip(t1, u, parseDate);
    UuidRoundTrip(t2, u, parseDate);
  }

  // ----- Where the round trip does not hold -----

  /** A `--` followed by something that is not a UUID falls through to the
      last-hyphen rule: "title--not-a-uuid" decodes to nothing. */
  lemma NonUuidAfterDoubleHyphen()
    ensures ParseRecipeSlug("title--not-a-uuid") == ""
  {
    var s := "title--not-a-uuid";
    FirstDoubleHyphenIs(s, 5);
    assert !IsUuid(s[7..]) by { assert |s[7..]| != 36; }
    LastIndexOfIs(s, '-', 12);
    ParseAfterNonUuid(s, 5, 12);
    assert !IsDigitRun(s[13..]) by { assert s[13] == 'u'; }
  }

  /** A negative number is written with its minus sign, which then reads as
      a second separator hyphen: the id -5 decodes as "5", not "-5". */
  lemma NegativeNumberLosesSign(title: string, n: int, parseDate: string -> Option<int>)
    requires title != "" && -MaxSafeInteger <= n < 0
    ensures ParseRecipeSlug(GenerateRecipeSlug(title, NumberId(n), parseDate)) == NatToDecimal(-n)
  {
    var t := TitleSlug(title);
    var d := NatToDecimal(-n);
    NegativeNumberSlug(title, n, parseDate);
    DoubleHyphenDigits(t, d);
  }

  lemma NegativeNumberSlug(title: string, n: int, parseDate: string -> Option<int>)
    requires title != "" && n < 0
    ensures GenerateRecipeSlug(title, NumberId(n), parseDate) == TitleSlug(title) + "--" + NatToDecimal(-n)
  {
    assert IntToDecimal(n) == "-" + NatToDecimal(-n);
  }

  /** How the decoder reads a normalised title, `--` and a run of digits. */
  lemma DoubleHyphenDigits(t: string, d: string)
    requires IsNormalTitle(t) && IsDigitRun(d)
    ensures ParseRecipeSlug(t + "--" + d) == d
  {
    var slug := t + "--" + d;
    assert '-' !in d by { assert forall k :: 0 <= k < |d| ==> IsDigit(d[k]); }
    FirstDoubleHyphenAfterTitle(t, d);
    assert slug[|t| + 2..] == d;
    assert !IsUuid(d) by {
      if IsUuid(d) { UuidIsNotDigits(d); }
    }
    assert slug == (t + "-") + "-" + d;
    LastHyphenBefore(t + "-", d);
    ParseAfterNonUuid(slug, |t|, |t| + 1);
  }

  /** An identifier the encoder treats as a UUID but that fails the
      decoder's pattern does not come back: when it ends in a hyphen and a
      run of digits, the decoder returns that run. */
  lemma NonRfcUuidDecodesToLastGroup(title: string, u: string, g: string, parseDate: string -> Option<int>)
    requires title != "" && LooksLikeUuid(u) && !IsUuid(u)
    requires IsDigitRun(g) && |g| < |u| && u[|u| - |g|..] == g && u[|u| - |g| - 1] == '-'
    ensures ParseRecipeSlug(GenerateRecipeSlug(title, StringId(u), parseDate)) == g
  {
    var t := TitleSlug(title);
    var slug := t + "--" + u;
    var pre := t + "--" + u[..|u| - |g| - 1];
    assert GenerateRecipeSlug(title, StringId(u), parseDate) == slug;
    SlugAroundGroup(t, u, g);
    FirstDoubleHyphenAfterTitle(t, u);
    DigitsHaveNoHyphen(g);
    LastHyphenBefore(pre, g);
    ParseAfterNonUuid(slug, |t|, |pre|);
  }

  /** Where the pieces of `t--u` sit when `u` ends in `-g`. */
  lemma SlugAroundGroup(t: string, u: string, g: string)
    requires |g| < |u| && u[|u| - |g|..] == g && u[|u| - |g| - 1] == '-'
    ensures var slug := t + "--" + u;
            var pre := t + "--" + u[..|u| - |g| - 1];
            && slug == pre + "-" + g
            && slug[|t| + 2..] == u
            && slug[|pre| + 1..] == g
  {
    assert u == u[..|u| - |g| - 1] + "-" + g;
  }

  lemma DigitsHaveNoHyphen(g: string)
    requires AllDigits(g)
    ensures '-' !in g
  {
    assert forall k :: 0 <= k < |g| ==> IsDigit(g[k]);
  }

  /** The nil UUID of section 4.1.7 of RFC 4122. */
  const NilUuid := "00000000-0000-0000-0000-000000000000"

  /** The nil UUID is such an identifier: it comes back as its last group. */
  lemma NilUuidDecodesToLastGroup(title: string, parseDate: string -> Option<int>)
    requires title != ""
    ensures ParseRecipeSlug(GenerateRecipeSlug(title, StringId(NilUuid), parseDate)) == "000000000000"
  {
    NilUuidIsNotRfc();
    NilUuidLastGroup();
    NonRfcUuidDecodesToLastGroup(title, NilUuid, "000000000000", parseDate);
  }

  lemma NilUuidIsNotRfc()
    ensures LooksLikeUuid(NilUuid) && !IsUuid(NilUuid)
  {
    assert NilUuid[8] == '-';
    assert NilUuid[14] == '0';
  }

  lemma NilUuidLastGroup()
    ensures var g := "000000000000";
            && IsDigitRun(g) && |g| < |NilUuid|
            && NilUuid[|NilUuid| - |g|..] == g && NilUuid[|NilUuid| - |g| - 1] == '-'
  {
    assert NilUuid[24..] == "000000000000";
  }
}

=== FILE: strings.dfy ===
/**
  The JavaScript string primitives the recipe code relies on: the character
  classes of its regular expressions, `toLowerCase` (on ASCII), `trim`,
  `split`/`join` on one separator character, and `Number.prototype.toString`
  on integers.
*/
module Strings {
  import opened Sequences

  predicate IsAsciiUpper(c: char) { 'A' <= c <= 'Z' }
  predicate IsAsciiLower(c: char) { 'a' <= c <= 'z' }
  predicate IsDigit(c: char) { '0' <= c <= '9' }
  predicate IsAsciiAlnum(c: char) { IsAsciiUpper(c) || IsAsciiLower(c) || IsDigit(c) }

  /** The ECMAScript WhiteSpace and LineTerminator characters: the set that
      both `\s` in a regular expression and `String.prototype.trim` use. */
  predicate IsSpace(c: char) {
    || c == '\t' || c == '\n' || c == '\U{B}' || c == '\U{C}' || c == '\r' || c == ' '
    || c == '\U{A0}' || c == '\U{1680}' || ('\U{2000}' <= c <= '\U{200A}')
    || c == '\U{2028}' || c == '\U{2029}' || c == '\U{202F}' || c == '\U{205F}'
    || c == '\U{3000}' || c == '\U{FEFF}'
  }

  /** Every character is a decimal digit. */
  predicate AllDigits(s: string) { forall i :: 0 <= i < |s| ==> IsDigit(s[i]) }

  /** `c.toLowerCase()` on ASCII; every other character is left as it is. */
  function LowerChar(c: char): (r: char)
    ensures IsAsciiUpper(c) ==> IsAsciiLower(r)
    ensures !IsAsciiUpper(c) ==> r == c
    ensures IsAsciiAlnum(c) <==> IsAsciiLower(r) || IsDigit(r)
  {
    if IsAsciiUpper(c) then (c as int - 'A' as int + 'a' as int) as char else c
  }

  function Lower(s: string): (r: string)
    ensures |r| == |s|
    ensures forall i :: 0 <= i < |r| ==> !IsAsciiUpper(r[i])
  {
    Map(LowerChar, s)
  }

  /** Removes leading and trailing whitespace, as `trim` does. */
  function Trim(s: string): (r: string)
    ensures |r| <= |s|
    ensures |r| > 0 ==> !IsSpace(r[0]) && !IsSpace(r[|r| - 1])
  {
    DropLastWhile(IsSpace, DropWhile(IsSpace, s))
  }

  /** A form entry the recipe pages treat as empty: nothing is left after trimming. */
  predicate IsBlank(s: string) { Trim(s) == "" }

  /** Trimming leaves nothing exactly when every character is whitespace. */
  lemma BlankIffAllSpace(s: string)
    ensures IsBlank(s) <==> forall i :: 0 <= i < |s| ==> IsSpace(s[i])
  {
    var d := DropWhile(IsSpace, s);
    if IsBlank(s) {
      assert |d| == 0;
    }
  }

  /** Trimming an already trimmed string changes nothing. */
  lemma TrimIdempotent(s: string)
    ensures Trim(Trim(s)) == Trim(s)
  {
    var t := Trim(s);
    DropWhileIs(IsSpace, t, 0);
    assert t[0..] == t;
    DropLastWhileIs(IsSpace, t, |t|);
    assert t[..|t|] == t;
  }

  /** Joins the parts with `sep` between neighbours, as `join` does. */
  function Join(parts: seq<string>, sep: char): string
    decreases |parts|
  {
    if |parts| == 0 then ""
    else if |parts| == 1 then parts[0]
    else parts[0] + [sep] + Join(parts[1..], sep)
  }

  /** `s.split(sep)` for a one-character separator: the maximal runs between
      separators, so there is always at least one (possibly empty) part. */
  function Split(s: string, sep: char): (parts: seq<string>)
    ensures |parts| >= 1
    ensures forall i :: 0 <= i < |parts| ==> sep !in parts[i]
    ensures Join(parts, sep) == s
    decreases |s|
  {
    if |s| == 0 then [""]
    else
      var rest := Split(s[1..], sep);
      if s[0] == sep then
        assert ([""] + rest)[1..] == rest;
        [""] + rest
      else
        var parts := [[s[0]] + rest[0]] + rest[1..];
        assert parts[1..] == rest[1..];
        assert |rest| > 1 ==> Join(rest, sep) == rest[0] + [sep] + Join(rest[1..], sep);
        assert s == [s[0]] + s[1..];
        parts
  }

  /** Splitting a string that has no separator yields the string itself. */
  lemma {:induction false} SplitWithoutSeparator(s: string, sep: char)
    requires sep !in s
    ensures Split(s, sep) == [s]
    decreases |s|
  {
    if |s| > 0 {
      SplitWithoutSeparator(s[1..], sep);
      assert s == [s[0]] + s[1..];
    }
  }

  /** The first separator ends the first part. */
  lemma {:induction false} SplitAtSeparator(a: string, sep: char, t: string)
    requires sep !in a
    ensures Split(a + [sep] + t, sep) == [a] + Split(t, sep)
    decreases |a|
  {
    var s := a + [sep] + t;
    if |a| == 0 {
      assert s[1..] == t;
    } else {
      assert s[1..] == a[1..] + [sep] + t;
      SplitAtSeparator(a[1..], sep, t);
      assert a == [a[0]] + a[1..];
    }
  }

  /** Joining parts that hold no separator and splitting again gives the
      parts back: together with `Split`'s own contract, split and join are
      inverse to each other. */
  lemma {:induction false} SplitJoin(parts: seq<string>, sep: char)
    requires |parts| >= 1
    requires forall i :: 0 <= i < |parts| ==> sep !in parts[i]
    ensures Split(Join(parts, sep), sep) == parts
    decreases |parts|
  {
    if |parts| == 1 {
      SplitWithoutSeparator(parts[0], sep);
    } else {
      SplitJoin(parts[1..], sep);
      SplitAtSeparator(parts[0], sep, Join(parts[1..], sep));
      assert parts == [parts[0]] + parts[1..];
    }
  }

  /** Joining two non-empty lists puts one separator between the halves. */
  lemma {:induction false} JoinAppend(a: seq<string>, b: seq<string>, sep: char)
    requires |a| >= 1 && |b| >= 1
    ensures Join(a + b, sep) == Join(a, sep) + [sep] + Join(b, sep)
    decreases |a|
  {
    if |a| > 1 {
      assert (a + b)[1..] == a[1..] + b;
      JoinAppend(a[1..], b, sep);
    }
  }

  /** The first part of a split is the text before the first separator. */
  lemma FirstPartIsPrefix(s: string, sep: char)
    ensures var p := Split(s, sep)[0];
      && |p| <= |s| && s[..|p|] == p && sep !in p
      && (|p| == |s| || s[|p|] == sep)
  {
    var parts := Split(s, sep);
    if |parts| > 1 {
      assert s == parts[0] + [sep] + Join(parts[1..], sep);
    }
  }

  /** The last part of a split is the text after the last separator. */
  lemma LastPartIsSuffix(s: string, sep: char)
    ensures var parts := Split(s, sep); var p := parts[|parts| - 1];
      && |p| <= |s| && s[|s| - |p|..] == p && sep !in p
      && (|p| == |s| || s[|s| - |p| - 1] == sep)
  {
    var parts := Split(s, sep);
    var n := |parts|;
    var p := parts[n - 1];
    assert sep !in p;
    if n > 1 {
      var pre := parts[..n - 1];
      assert s == Join(pre, sep) + [sep] + p by {
        assert parts == pre + [p];
        JoinAppend(pre, [p], sep);
      }
    }
  }

  function DigitChar(d: int): (c: char)
    requires 0 <= d < 10
    ensures IsDigit(c)
  {
    ('0' as int + d) as char
  }

  /** The decimal digits of a natural number, most significant first. */
  function NatToDecimal(n: nat): (s: string)
    ensures |s| >= 1 && AllDigits(s)
    ensures s[0] == '0' ==> n == 0
    ensures |s| > 1 ==> s[0] != '0'
    decreases n
  {
    if n < 10 then [DigitChar(n)] else NatToDecimal(n / 10) + [DigitChar(n % 10)]
  }

  /** The value of a string of decimal digits. */
  function DecimalValue(s: string): nat
    requires AllDigits(s)
    decreases |s|
  {
    if |s| == 0 then 0
    else DecimalValue(s[..|s| - 1]) * 10 + (s[|s| - 1] as int - '0' as int)
  }

  /** Reading back the digits `NatToDecimal` writes gives the number. */
  lemma {:induction false} DecimalRoundTrip(n: nat)
    ensures DecimalValue(NatToDecimal(n)) == n
    decreases n
  {
    if n >= 10 {
      DecimalRoundTrip(n / 10);
      var s := NatToDecimal(n);
      assert s[..|s| - 1] == NatToDecimal(n / 10);
    }
  }

  /** The largest integer a JavaScript number holds exactly, 2^53 - 1. */
  const MaxSafeInteger: int := 0x1F_FFFF_FFFF_FFFF

  /** `String(n)` for an integer `n`: the decimal digits without leading
      zeros, after a `-` for a negative number. This is what JavaScript
      prints for a safe integer (magnitude at most `MaxSafeInteger`); beyond
      that a number is a rounded double and prints its shortest round-trip
      digits instead. */
  function IntToDecimal(n: int): (s: string)
    ensures |s| >= 1
    ensures n >= 0 ==> AllDigits(s) && |s| >= 1 && DecimalValue(s) == n
    ensures n >= 0 && |s| > 1 ==> s[0] != '0'
    ensures n < 0 ==> |s| >= 2 && s[0] == '-' && AllDigits(s[1..]) && DecimalValue(s[1..]) == -n
    ensures n < 0 ==> s[1] != '0'
  {
    if n < 0 then
      DecimalRoundTrip(-n);
      assert ("-" + NatToDecimal(-n))[1..] == NatToDecimal(-n);
      "-" + NatToDecimal(-n)
    else
      DecimalRoundTrip(n);
      NatToDecimal(n)
  }
}

=== FILE: title_slugs.dfy ===
/**
  The title half of a recipe slug: the five-step normalisation of
  `generateRecipeSlug` (lowercase, strip, whitespace to hyphen, collapse
  hyphens, trim hyphens), the shape every normalised title has, and the facts
  the decoder relies on: a normalised title holds no `--` and never ends in
  `-`.
*/
module TitleSlugs {
  import opened Sequences
  import opened Strings

  predicate IsHyphen(c: char) { c == '-' }

  /** The characters `[a-z0-9\s-]` that survive the stripping step. */
  predicate IsKeptChar(c: char) { IsAsciiLower(c) || IsDigit(c) || IsSpace(c) || c == '-' }

  /** The letters and digits of a lowercased title. */
  predicate IsWordChar(c: char) { IsAsciiLower(c) || IsDigit(c) }

  /** The characters a normalised title consists of. */
  predicate IsSlugChar(c: char) { IsWordChar(c) || c == '-' }

  predicate IsNotSpace(c: char) { !IsSpace(c) }

  /** Every character is one of `[a-z0-9\s-]`. */
  predicate AllKept(s: string) { All(IsKeptChar, s) }

  /** Every character is one of `[a-z0-9-]`. */
  predicate AllSlugChars(s: string) { All(IsSlugChar, s) }

  /** A `--` starts at position `i`. */
  predicate DoubleHyphenAt(s: string, i: int) {
    0 <= i < |s| - 1 && s[i] == '-' && s[i + 1] == '-'
  }

  predicate NoDoubleHyphen(s: string) {
    forall i :: 0 <= i < |s| - 1 ==> !DoubleHyphenAt(s, i)
  }

  /** A normalised title: only `[a-z0-9-]`, no leading, trailing or doubled
      hyphen. The empty string is one. */
  predicate IsNormalTitle(s: string) {
    && AllSlugChars(s)
    && NoDoubleHyphen(s)
    && (|s| > 0 ==> s[0] != '-' && s[|s| - 1] != '-')
  }

  lemma NoDoubleHyphenSlice(s: string, lo: int, hi: int)
    requires 0 <= lo <= hi <= |s| && NoDoubleHyphen(s)
    ensures NoDoubleHyphen(s[lo..hi])
  {
    var t := s[lo..hi];
    forall i | 0 <= i < |t| - 1 ensures !DoubleHyphenAt(t, i) {
      assert !DoubleHyphenAt(s, lo + i);
      assert t[i] == s[lo + i] && t[i + 1] == s[lo + i + 1];
    }
  }

  /** Joining two strings without doubled hyphens creates none, unless a
      hyphen meets a hyphen at the seam. */
  lemma NoDoubleHyphenAppend(a: string, b: string)
    requires NoDoubleHyphen(a) && NoDoubleHyphen(b)
    requires |a| > 0 && |b| > 0 ==> !(a[|a| - 1] == '-' && b[0] == '-')
    ensures NoDoubleHyphen(a + b)
  {
    var s := a + b;
    forall i | 0 <= i < |s| - 1 ensures !DoubleHyphenAt(s, i) {
      if i + 1 < |a| {
        assert !DoubleHyphenAt(a, i);
        assert s[i] == a[i] && s[i + 1] == a[i + 1];
      } else if i >= |a| {
        assert !DoubleHyphenAt(b, i - |a|);
        assert s[i] == b[i - |a|] && s[i + 1] == b[i - |a| + 1];
      }
    }
  }

  /** Step two: removes every character other than a lowercase ASCII letter,
      a digit, whitespace or a hyphen. */
  function StripSpecials(s: string): (r: string)
    ensures AllKept(r)
  {
    Filter(IsKeptChar, s)
  }

  /** Step three: every maximal whitespace run becomes one hyphen. */
  function SpacesToHyphens(s: string): string
    decreases |s|
  {
    if |s| == 0 then []
    else if IsSpace(s[0]) then "-" + SpacesToHyphens(DropWhile(IsSpace, s[1..]))
    else [s[0]] + SpacesToHyphens(s[1..])
  }

  /** The hyphenated title holds no whitespace. */
  lemma {:induction false} SpacesToHyphensRemovesSpaces(s: string)
    ensures All(IsNotSpace, SpacesToHyphens(s))
    decreases |s|
  {
    if |s| > 0 {
      if IsSpace(s[0]) {
        var rest := DropWhile(IsSpace, s[1..]);
        SpacesToHyphensRemovesSpaces(rest);
        AllAppend(IsNotSpace, "-", SpacesToHyphens(rest));
      } else {
        SpacesToHyphensRemovesSpaces(s[1..]);
        AllAppend(IsNotSpace, [s[0]], SpacesToHyphens(s[1..]));
      }
    }
  }

  /** An input of `[a-z0-9\s-]` becomes one of `[a-z0-9-]`. */
  lemma {:induction false} SpacesToHyphensSlugChars(s: string)
    requires AllKept(s)
    ensures AllSlugChars(SpacesToHyphens(s))
    decreases |s|
  {
    if |s| > 0 {
      AllSlice(IsKeptChar, s, 1, |s|);
      if IsSpace(s[0]) {
        var rest := DropWhile(IsSpace, s[1..]);
        AllSlice(IsKeptChar, s[1..], |s| - 1 - |rest|, |s| - 1);
        SpacesToHyphensSlugChars(rest);
        AllAppend(IsSlugChar, "-", SpacesToHyphens(rest));
      } else {
        SpacesToHyphensSlugChars(s[1..]);
        AllAppend(IsSlugChar, [s[0]], SpacesToHyphens(s[1..]));
      }
    }
  }

  /** Step four: every maximal hyphen run becomes one hyphen. */
  function CollapseHyphens(s: string): (r: string)
    ensures |r| == 0 <==> |s| == 0
    ensures |s| > 0 ==> r[0] == s[0]
    decreases |s|
  {
    if |s| == 0 then []
    else if s[0] == '-' then "-" + CollapseHyphens(DropWhile(IsHyphen, s[1..]))
    else [s[0]] + CollapseHyphens(s[1..])
  }

  /** Collapsing leaves no doubled hyphen. */
  lemma {:induction false} CollapseHyphensSingles(s: string)
    ensures NoDoubleHyphen(CollapseHyphens(s))
    decreases |s|
  {
    if |s| > 0 {
      if s[0] == '-' {
        var rest := DropWhile(IsHyphen, s[1..]);
        assert CollapseHyphens(s) == "-" + CollapseHyphens(rest);
        assert NoDoubleHyphen("-");
        CollapseHyphensSingles(rest);
        NoDoubleHyphenAppend("-", CollapseHyphens(rest));
      } else {
        assert CollapseHyphens(s) == [s[0]] + CollapseHyphens(s[1..]);
        assert NoDoubleHyphen([s[0]]);
        CollapseHyphensSingles(s[1..]);
        NoDoubleHyphenAppend([s[0]], CollapseHyphens(s[1..]));
      }
    }
  }

  /** Collapsing brings in no new character. */
  lemma {:induction false} CollapseHyphensSlugChars(s: string)
    requires AllSlugChars(s)
    ensures AllSlugChars(CollapseHyphens(s))
    decreases |s|
  {
    if |s| > 0 {
      AllSlice(IsSlugChar, s, 1, |s|);
      if s[0] == '-' {
        var rest := DropWhile(IsHyphen, s[1..]);
        AllSlice(IsSlugChar, s[1..], |s| - 1 - |rest|, |s| - 1);
        CollapseHyphensSlugChars(rest);
        AllAppend(IsSlugChar, "-", CollapseHyphens(rest));
      } else {
        CollapseHyphensSlugChars(s[1..]);
        AllAppend(IsSlugChar, [s[0]], CollapseHyphens(s[1..]));
      }
    }
  }

  /** Step five: removes the hyphens at either end. */
  function TrimHyphens(s: string): (r: string)
    ensures |r| > 0 ==> r[0] != '-' && r[|r| - 1] != '-'
  {
    DropLastWhile(IsHyphen, DropWhile(IsHyphen, s))
  }

  /** Trimming keeps the character set and the absence of doubled hyphens. */
  lemma TrimHyphensShape(s: string)
    ensures NoDoubleHyphen(s) ==> NoDoubleHyphen(TrimHyphens(s))
    ensures AllSlugChars(s) ==> AllSlugChars(TrimHyphens(s))
  {
    var d := DropWhile(IsHyphen, s);
    var r := TrimHyphens(s);
    AllSlice(IsSlugChar, s, |s| - |d|, |s|);
    AllSlice(IsSlugChar, d, 0, |r|);
    if NoDoubleHyphen(s) {
      NoDoubleHyphenSlice(s, |s| - |d|, |s|);
      assert s[|s| - |d|..|s|] == d;
      NoDoubleHyphenSlice(d, 0, |r|);
    }
  }

  /** The title segment `generateRecipeSlug` builds (lowercasing, then four regular-expression replacements).
      Whatever the title, the segment is in normal form. */
  function TitleSlug(title: string): (slug: string)
    ensures IsNormalTitle(slug)
  {
    var stripped := StripSpecials(Lower(title));
    var hyphenated := SpacesToHyphens(stripped);
    var collapsed := CollapseHyphens(hyphenated);
    SpacesToHyphensSlugChars(stripped);
    CollapseHyphensSingles(hyphenated);
    CollapseHyphensSlugChars(hyphenated);
    TrimHyphensShape(collapsed);
    TrimHyphens(collapsed)
  }

  // ----- Idempotence: every stage leaves a normal title unchanged -----

  lemma {:induction false} StripSpecialsKeepsNormal(s: string)
    requires IsNormalTitle(s)
    ensures StripSpecials(s) == s
  {
    FilterKeepsAll(IsKeptChar, s);
  }

  lemma {:induction false} SpacesToHyphensKeepsSpaceless(s: string)
    requires forall i :: 0 <= i < |s| ==> !IsSpace(s[i])
    ensures SpacesToHyphens(s) == s
    decreases |s|
  {
    if |s| > 0 {
      SpacesToHyphensKeepsSpaceless(s[1..]);
      assert s == [s[0]] + s[1..];
    }
  }

  lemma {:induction false} CollapseHyphensKeepsSingle(s: string)
    requires NoDoubleHyphen(s)
    ensures CollapseHyphens(s) == s
    decreases |s|
  {
    if |s| > 0 {
      NoDoubleHyphenSlice(s, 1, |s|);
      assert s[1..|s|] == s[1..];
      SingleHyphenStep(s);
      CollapseHyphensKeepsSingle(s[1..]);
      assert s == [s[0]] + s[1..];
    }
  }

  /** Without a doubled hyphen, collapsing handles the first character on
      its own. */
  lemma SingleHyphenStep(s: string)
    requires |s| > 0 && NoDoubleHyphen(s)
    ensures CollapseHyphens(s) == [s[0]] + CollapseHyphens(s[1..])
  {
    if s[0] == '-' {
      if |s| > 1 {
        assert !DoubleHyphenAt(s, 0);
      }
      DropWhileIs(IsHyphen, s[1..], 0);
      assert s[1..][0..] == s[1..];
    }
  }

  /** A normalised title has no upper-case letter and no whitespace. */
  lemma NormalTitleChars(s: string)
    requires AllSlugChars(s)
    ensures Lower(s) == s
    ensures forall i :: 0 <= i < |s| ==> !IsSpace(s[i])
  {
    forall i | 0 <= i < |s| ensures !IsAsciiUpper(s[i]) && !IsSpace(s[i]) {
      assert IsSlugChar(s[i]);
    }
  }

  lemma TrimHyphensKeepsTrimmed(s: string)
    requires |s| > 0 ==> s[0] != '-' && s[|s| - 1] != '-'
    ensures TrimHyphens(s) == s
  {
    DropWhileIs(IsHyphen, s, 0);
    assert s[0..] == s;
    DropLastWhileIs(IsHyphen, s, |s|);
    assert s[..|s|] == s;
  }

  /** Normalising a normalised title gives it back. */
  lemma NormalTitleIsFixed(s: string)
    requires IsNormalTitle(s)
    ensures TitleSlug(s) == s
  {
    assert Lower(s) == s by { NormalTitleChars(s); }
    assert StripSpecials(s) == s by { StripSpecialsKeepsNormal(s); }
    assert SpacesToHyphens(s) == s by {
      NormalTitleChars(s);
      SpacesToHyphensKeepsSpaceless(s);
    }
    assert CollapseHyphens(s) == s by { CollapseHyphensKeepsSingle(s); }
    assert TrimHyphens(s) == s by { TrimHyphensKeepsTrimmed(s); }
  }

  /** The normalisation is idempotent. */
  lemma TitleSlugIdempotent(title: string)
    ensures TitleSlug(TitleSlug(title)) == TitleSlug(title)
  {
    NormalTitleIsFixed(TitleSlug(title));
  }

  // ----- Content: the letters and digits survive, in order -----

  /** A leading whitespace run holds no letter or digit. */
  lemma SpaceRunKeepsWords(s: string)
    requires |s| > 0 && IsSpace(s[0])
    ensures Filter(IsWordChar, s) == Filter(IsWordChar, DropWhile(IsSpace, s[1..]))
  {
    assert Filter(IsWordChar, s) == Filter(IsWordChar, s[1..]) by {
      assert s == [s[0]] + s[1..];
      FilterCons(IsWordChar, s[0], s[1..]);
    }
    assert Filter(IsWordChar, DropWhile(IsSpace, s[1..])) == Filter(IsWordChar, s[1..]) by {
      FilterDropWhile(IsWordChar, IsSpace, s[1..]);
    }
  }

  lemma {:induction false} SpacesToHyphensKeepsWords(s: string)
    ensures Filter(IsWordChar, SpacesToHyphens(s)) == Filter(IsWordChar, s)
    decreases |s|
  {
    if |s| > 0 {
      if IsSpace(s[0]) {
        var rest := DropWhile(IsSpace, s[1..]);
        assert SpacesToHyphens(s) == "-" + SpacesToHyphens(rest);
        SpacesToHyphensKeepsWords(rest);
        FilterCons(IsWordChar, '-', SpacesToHyphens(rest));
        SpaceRunKeepsWords(s);
      } else {
        assert SpacesToHyphens(s) == [s[0]] + SpacesToHyphens(s[1..]);
        SpacesToHyphensKeepsWords(s[1..]);
        FilterCons(IsWordChar, s[0], SpacesToHyphens(s[1..]));
        assert s == [s[0]] + s[1..];
        FilterCons(IsWordChar, s[0], s[1..]);
      }
    }
  }

  lemma {:induction false} CollapseHyphensKeepsWords(s: string)
    ensures Filter(IsWordChar, CollapseHyphens(s)) == Filter(IsWordChar, s)
    decreases |s|
  {
    if |s| > 0 {
      assert s == [s[0]] + s[1..];
      FilterCons(IsWordChar, s[0], s[1..]);
      if s[0] == '-' {
        var rest := DropWhile(IsHyphen, s[1..]);
        CollapseHyphensKeepsWords(rest);
        FilterDropWhile(IsWordChar, IsHyphen, s[1..]);
        FilterCons(IsWordChar, '-', CollapseHyphens(rest));
      } else {
        CollapseHyphensKeepsWords(s[1..]);
        FilterCons(IsWordChar, s[0], CollapseHyphens(s[1..]));
      }
    }
  }

  lemma StripSpecialsKeepsWords(s: string)
    ensures Filter(IsWordChar, StripSpecials(s)) == Filter(IsWordChar, s)
    decreases |s|
  {
    if |s| > 0 {
      StripSpecialsKeepsWords(s[1..]);
      FilterAppend(IsWordChar, if IsKeptChar(s[0]) then [s[0]] else [], StripSpecials(s[1..]));
    }
  }

  /** Normalisation loses no letter or digit: the lowercase letters and
      digits of the lowercased title are exactly those of the segment, in the
      same order. */
  lemma TitleSlugKeepsWords(title: string)
    ensures Filter(IsWordChar, TitleSlug(title)) == Filter(IsWordChar, Lower(title))
  {
    var a := StripSpecials(Lower(title));
    var b := SpacesToHyphens(a);
    var c := CollapseHyphens(b);
    var d := DropWhile(IsHyphen, c);
    assert Filter(IsWordChar, a) == Filter(IsWordChar, Lower(title)) by {
      StripSpecialsKeepsWords(Lower(title));
    }
    assert Filter(IsWordChar, b) == Filter(IsWordChar, a) by {
      SpacesToHyphensKeepsWords(a);
    }
    assert Filter(IsWordChar, c) == Filter(IsWordChar, b) by {
      CollapseHyphensKeepsWords(b);
    }
    assert Filter(IsWordChar, d) == Filter(IsWordChar, c) by {
      FilterDropWhile(IsWordChar, IsHyphen, c);
    }
    assert Filter(IsWordChar, DropLastWhile(IsHyphen, d)) == Filter(IsWordChar, d) by {
      FilterDropLastWhile(IsWordChar, IsHyphen, d);
    }
    assert TitleSlug(title) == DropLastWhile(IsHyphen, d);
  }

  /** The segment is empty exactly when the title has no ASCII letter or digit. */
  lemma TitleSlugEmptyIff(title: string)
    ensures TitleSlug(title) == "" <==> forall i :: 0 <= i < |title| ==> !IsAsciiAlnum(title[i])
  {
    var slug := TitleSlug(title);
    var lower := Lower(title);
    TitleSlugKeepsWords(title);
    FilterEmpty(IsWordChar, lower);
    assert forall i :: 0 <= i < |title| ==> (IsAsciiAlnum(title[i]) <==> IsWordChar(lower[i]));
    if slug != "" {
      FilterEmpty(IsWordChar, slug);
      assert IsWordChar(slug[0]);
    }
  }

  // ----- Where the hyphens go -----

  /** Step three leaves a stretch without whitespace as it is. */
  lemma {:induction false} SpacesToHyphensPrefix(a: string, b: string)
    requires All(IsNotSpace, a)
    ensures SpacesToHyphens(a + b) == a + SpacesToHyphens(b)
    decreases |a|
  {
    if |a| == 0 {
      assert a + b == b;
    } else {
      var ab := a + b;
      assert ab[0] == a[0] && IsNotSpace(a[0]);
      assert ab[1..] == a[1..] + b;
      assert SpacesToHyphens(ab) == [a[0]] + SpacesToHyphens(a[1..] + b);
      assert All(IsNotSpace, a[1..]) by {
        AllSlice(IsNotSpace, a, 1, |a|);
        assert a[1..|a|] == a[1..];
      }
      SpacesToHyphensPrefix(a[1..], b);
      assert a == [a[0]] + a[1..];
    }
  }

  /** Step three turns a maximal whitespace run into exactly one hyphen. */
  lemma SpacesToHyphensRun(a: string, r: string, b: string)
    requires All(IsNotSpace, a)
    requires |r| > 0 && All(IsSpace, r)
    requires |b| == 0 || !IsSpace(b[0])
    ensures SpacesToHyphens(a + r + b) == a + "-" + SpacesToHyphens(b)
  {
    assert a + r + b == a + (r + b);
    SpacesToHyphensPrefix(a, r + b);
    SpaceRunStep(r, b);
  }

  lemma SpaceRunStep(r: string, b: string)
    requires |r| > 0 && All(IsSpace, r)
    requires |b| == 0 || !IsSpace(b[0])
    ensures SpacesToHyphens(r + b) == "-" + SpacesToHyphens(b)
  {
    var rb := r + b;
    assert IsSpace(rb[0]) by { assert rb[0] == r[0]; }
    assert rb[1..] == r[1..] + b;
    assert DropWhile(IsSpace, r[1..]) == [] by {
      AllSlice(IsSpace, r, 1, |r|);
      assert r[1..|r|] == r[1..];
      DropWhileIs(IsSpace, r[1..], |r| - 1);
    }
    assert DropWhile(IsSpace, rb[1..]) == b by {
      DropWhileAppend(IsSpace, r[1..], b);
    }
  }

  /** Step four leaves a stretch without hyphens as it is. */
  lemma {:induction false} CollapseHyphensPrefix(a: string, b: string)
    requires forall i :: 0 <= i < |a| ==> a[i] != '-'
    ensures CollapseHyphens(a + b) == a + CollapseHyphens(b)
    decreases |a|
  {
    if |a| == 0 {
      assert a + b == b;
    } else {
      var ab := a + b;
      assert ab[0] == a[0] && a[0] != '-';
      assert ab[1..] == a[1..] + b;
      assert CollapseHyphens(ab) == [a[0]] + CollapseHyphens(a[1..] + b);
      CollapseHyphensPrefix(a[1..], b);
      assert a == [a[0]] + a[1..];
    }
  }

  /** Step four turns a maximal hyphen run into exactly one hyphen. */
  lemma CollapseHyphensRun(h: string, b: string)
    requires |h| > 0 && All(IsHyphen, h)
    requires |b| == 0 || b[0] != '-'
    ensures CollapseHyphens(h + b) == "-" + CollapseHyphens(b)
  {
    var hb := h + b;
    assert hb[0] == '-' by { assert hb[0] == h[0]; }
    assert hb[1..] == h[1..] + b;
    assert DropWhile(IsHyphen, h[1..]) == [] by {
      AllSlice(IsHyphen, h, 1, |h|);
      assert h[1..|h|] == h[1..];
      DropWhileIs(IsHyphen, h[1..], |h| - 1);
    }
    assert DropWhile(IsHyphen, hb[1..]) == b by {
      DropWhileAppend(IsHyphen, h[1..], b);
    }
  }

  /** A separator the title may hold between words: whitespace or a hyphen. */
  predicate IsSeparatorChar(c: char) { IsSpace(c) || c == '-' }

  /** A non-empty run of separator characters. */
  predicate IsSeparator(r: string) { |r| > 0 && All(IsSeparatorChar, r) }

  /** A non-empty run of lowercase ASCII letters and digits. */
  predicate IsWord(w: string) { |w| > 0 && All(IsWordChar, w) }

  /** Step three turns a separator, followed by a word or the end, into a
      non-empty run of hyphens. */
  lemma {:induction false} SeparatorToHyphens(r: string, b: string) returns (h: string)
    requires IsSeparator(r)
    requires |b| == 0 || IsWordChar(b[0])
    ensures |h| > 0 && All(IsHyphen, h)
    ensures SpacesToHyphens(r + b) == h + SpacesToHyphens(b)
    decreases |r|
  {
    var d := SeparatorStep(r, b);
    if |d| == 0 {
      h := "-";
      assert d + b == b;
    } else {
      var h' := SeparatorToHyphens(d, b);
      h := "-" + h';
      assert All(IsHyphen, h) by { AllAppend(IsHyphen, "-", h'); }
      var sb := SpacesToHyphens(b);
      calc {
        SpacesToHyphens(r + b);
        "-" + SpacesToHyphens(d + b);
        "-" + (h' + sb);
        h + sb;
      }
    }
  }

  /** One step of step three on a separator: its first character becomes a
      hyphen and what is left of the separator is a shorter one, or nothing. */
  lemma SeparatorStep(r: string, b: string) returns (d: string)
    requires IsSeparator(r)
    requires |b| == 0 || IsWordChar(b[0])
    ensures |d| < |r| && (|d| == 0 || IsSeparator(d))
    ensures SpacesToHyphens(r + b) == "-" + SpacesToHyphens(d + b)
  {
    assert IsSeparatorChar(r[0]);
    var rest := r[1..];
    if r[0] == '-' {
      d := rest;
      HyphenStep(r, b);
    } else {
      d := DropWhile(IsSpace, rest);
      SpaceStep(r, b);
    }
    assert All(IsSeparatorChar, d) by {
      AllSlice(IsSeparatorChar, r, 1 + |rest| - |d|, |r|);
      assert r[1 + |rest| - |d|..|r|] == d;
    }
  }

  lemma HyphenStep(r: string, b: string)
    requires |r| > 0 && r[0] == '-'
    ensures SpacesToHyphens(r + b) == "-" + SpacesToHyphens(r[1..] + b)
  {
    var rb := r + b;
    assert rb[0] == '-' && !IsSpace(rb[0]);
    assert rb[1..] == r[1..] + b;
  }

  lemma SpaceStep(r: string, b: string)
    requires |r| > 0 && IsSpace(r[0])
    requires |b| == 0 || IsWordChar(b[0])
    ensures SpacesToHyphens(r + b) == "-" + SpacesToHyphens(DropWhile(IsSpace, r[1..]) + b)
  {
    var rb := r + b;
    assert rb[0] == r[0];
    assert rb[1..] == r[1..] + b;
    assert |b| == 0 || !IsSpace(b[0]);
    DropWhileAppend(IsSpace, r[1..], b);
  }

  /** Words with a separator between each neighbouring pair. */
  function Interleave(words: seq<string>, seps: seq<string>): string
    requires |words| >= 1 && |seps| == |words| - 1
    decreases |words|
  {
    if |words| == 1 then words[0] else words[0] + seps[0] + Interleave(words[1..], seps[1..])
  }

  predicate WellSeparated(words: seq<string>, seps: seq<string>) {
    && |words| >= 1 && |seps| == |words| - 1
    && (forall i :: 0 <= i < |words| ==> IsWord(words[i]))
    && (forall i :: 0 <= i < |seps| ==> IsSeparator(seps[i]))
  }

  lemma WellSeparatedTail(words: seq<string>, seps: seq<string>)
    requires WellSeparated(words, seps) && |words| >= 2
    ensures WellSeparated(words[1..], seps[1..])
  {
    forall i | 0 <= i < |words| - 1 ensures IsWord(words[1..][i]) {
      assert words[1..][i] == words[i + 1];
    }
    forall i | 0 <= i < |seps| - 1 ensures IsSeparator(seps[1..][i]) {
      assert seps[1..][i] == seps[i + 1];
    }
  }

  lemma WordHasNoSpaceOrHyphen(w: string)
    requires IsWord(w)
    ensures All(IsNotSpace, w)
    ensures forall i :: 0 <= i < |w| ==> w[i] != '-'
  {
    forall i | 0 <= i < |w| ensures !IsSpace(w[i]) && w[i] != '-' {
      assert IsWordChar(w[i]);
    }
  }

  /** Steps three and four turn every separator into one hyphen. */
  lemma {:induction false} HyphenatedWords(words: seq<string>, seps: seq<string>)
    requires WellSeparated(words, seps)
    ensures var s := SpacesToHyphens(Interleave(words, seps));
            |s| > 0 && IsWordChar(s[0]) && CollapseHyphens(s) == Join(words, '-')
    decreases |words|
  {
    var w := words[0];
    assert IsWord(w);
    if |words| == 1 {
      WordUnchanged(w);
    } else {
      var x := Interleave(words[1..], seps[1..]);
      WellSeparatedTail(words, seps);
      HyphenatedWords(words[1..], seps[1..]);
      assert IsWordChar(x[0]) by {
        assert IsWord(words[1]);
        InterleaveHead(words[1..], seps[1..]);
      }
      assert IsSeparator(seps[0]);
      WordSeparatorStep(w, seps[0], x);
      assert Interleave(words, seps) == w + (seps[0] + x);
      assert Join(words, '-') == w + "-" + Join(words[1..], '-');
    }
  }

  /** A lone word goes through steps three and four unchanged. */
  lemma WordUnchanged(w: string)
    requires IsWord(w)
    ensures SpacesToHyphens(w) == w && CollapseHyphens(w) == w
  {
    WordHasNoSpaceOrHyphen(w);
    SpacesToHyphensPrefix(w, "");
    CollapseHyphensPrefix(w, "");
    assert w + "" == w;
  }

  /** A word, a separator and the rest: steps three and four keep the word,
      put one hyphen for the separator and carry on with the rest. */
  lemma WordSeparatorStep(w: string, r: string, x: string)
    requires IsWord(w) && IsSeparator(r)
    requires |x| > 0 && IsWordChar(x[0])
    requires var sx := SpacesToHyphens(x); |sx| > 0 && IsWordChar(sx[0])
    ensures var s := SpacesToHyphens(w + (r + x));
            |s| > 0 && IsWordChar(s[0])
            && CollapseHyphens(s) == w + "-" + CollapseHyphens(SpacesToHyphens(x))
  {
    var sx := SpacesToHyphens(x);
    WordHasNoSpaceOrHyphen(w);
    var h := SeparatorToHyphens(r, x);
    SpacesToHyphensPrefix(w, r + x);
    assert SpacesToHyphens(w + (r + x)) == w + (h + sx);
    assert (w + (h + sx))[0] == w[0] && IsWordChar(w[0]);
    CollapseHyphensPrefix(w, h + sx);
    assert sx[0] != '-';
    CollapseHyphensRun(h, sx);
  }

  lemma InterleaveHead(words: seq<string>, seps: seq<string>)
    requires |words| >= 1 && |seps| == |words| - 1 && |words[0]| > 0
    ensures |Interleave(words, seps)| > 0 && Interleave(words, seps)[0] == words[0][0]
  {
  }

  /** The title is made only of lowercase letters, digits and separators. */
  lemma {:induction false} InterleaveKept(words: seq<string>, seps: seq<string>)
    requires WellSeparated(words, seps)
    ensures All(IsKeptChar, Interleave(words, seps))
    decreases |words|
  {
    var w := words[0];
    assert All(IsKeptChar, w) by {
      assert IsWord(w);
      forall i | 0 <= i < |w| ensures IsKeptChar(w[i]) { assert IsWordChar(w[i]); }
    }
    if |words| > 1 {
      var r := seps[0];
      assert All(IsKeptChar, r) by {
        assert IsSeparator(r);
        forall i | 0 <= i < |r| ensures IsKeptChar(r[i]) { assert IsSeparatorChar(r[i]); }
      }
      WellSeparatedTail(words, seps);
      InterleaveKept(words[1..], seps[1..]);
      var x := Interleave(words[1..], seps[1..]);
      AllAppend(IsKeptChar, r, x);
      AllAppend(IsKeptChar, w, r + x);
      assert Interleave(words, seps) == w + (r + x);
    }
  }

  /** Steps one and two leave such a title as it is. */
  lemma LowerAndStripKeep(s: string)
    requires All(IsKeptChar, s)
    ensures StripSpecials(Lower(s)) == s
  {
    forall i | 0 <= i < |s| ensures !IsAsciiUpper(s[i]) {
      assert IsKeptChar(s[i]);
    }
    assert Lower(s) == s;
    FilterKeepsAll(IsKeptChar, s);
  }

  /** The last character of joined non-empty words is the last word's last. */
  lemma {:induction false} JoinLast(words: seq<string>)
    requires |words| >= 1 && |words[|words| - 1]| > 0
    ensures var j := Join(words, '-'); var l := words[|words| - 1];
            |j| > 0 && j[|j| - 1] == l[|l| - 1]
    decreases |words|
  {
    if |words| > 1 {
      assert words[1..][|words| - 2] == words[|words| - 1];
      JoinLast(words[1..]);
    }
  }

  /** The reference behaviour of the normalisation: lowercase words over
      `[a-z0-9]` separated by runs of whitespace and hyphens come out as the
      same words joined by single hyphens. */
  lemma TitleSlugJoinsWords(words: seq<string>, seps: seq<string>)
    requires WellSeparated(words, seps)
    ensures TitleSlug(Interleave(words, seps)) == Join(words, '-')
  {
    var title := Interleave(words, seps);
    InterleaveKept(words, seps);
    LowerAndStripKeep(title);
    HyphenatedWords(words, seps);
    var j := Join(words, '-');
    var s := SpacesToHyphens(title);
    assert j[0] == s[0];
    assert IsWord(words[|words| - 1]);
    JoinLast(words);
    var l := words[|words| - 1];
    assert IsWordChar(l[|l| - 1]);
    TrimHyphensKeepsTrimmed(j);
  }
}

=== FILE: urls.dfy ===
/**
  The path builders and the username helpers of urlUtils.js: the fixed-shape
  routes `/<username>/...` with their literal fallbacks, the username format
  check, and the four-step choice of the username those routes carry.
*/
module Urls {
  import opened Wrappers
  import opened Sequences
  import opened Strings
  import opened SlugCodec

  // ----- Path builders -----

  /** `generateProfileUrl(username)`; an empty username stands for any falsy one. */
  function ProfileUrl(username: string): (url: string)
    ensures username == "" ==> url == "/profile"
    ensures username != "" ==> url == "/" + username
  {
    if username == "" then "/profile" else "/" + username
  }

  /** `generateMyRecipesUrl(username)` */
  function MyRecipesUrl(username: string): (url: string)
    ensures username == "" ==> url == "/my-recipes"
    ensures username != "" ==> url == "/" + username + "/my-recipes"
  {
    if username == "" then "/my-recipes" else "/" + username + "/my-recipes"
  }

  /** `generateCreateRecipeUrl(username)` */
  function CreateRecipeUrl(username: string): (url: string)
    ensures username == "" ==> url == "/create-recipe"
    ensures username != "" ==> url == "/" + username + "/create-recipe"
  {
    if username == "" then "/create-recipe" else "/" + username + "/create-recipe"
  }

  /** The second argument of `generateRecipeUrl`: a recipe record (an object)
      or a bare title (anything else; `''` stands for a falsy one). */
  datatype RecipeArg =
    | RecipeRecord(title: string, id: RecipeId, createdAt: RecipeId)
    | TitleArg(title: string)

  /** The id `generateRecipeUrl` uses: `recipe.id || recipe.created_at` for a
      record, the third argument otherwise. */
  function ChosenId(recipe: RecipeArg, timestamp: RecipeId): (id: RecipeId)
    ensures recipe.RecipeRecord? && IsTruthy(recipe.id) ==> id == recipe.id
    ensures recipe.RecipeRecord? && !IsTruthy(recipe.id) ==> id == recipe.createdAt
    ensures recipe.TitleArg? ==> id == timestamp
  {
    match recipe
    case RecipeRecord(_, id, createdAt) => if IsTruthy(id) then id else createdAt
    case TitleArg(_) => timestamp
  }

  /** `generateRecipeUrl(username, recipeOrTitle, timestamp)`: `#` when the
      username, the title or the chosen id is falsy, otherwise the recipe's
      slug under `/<username>/my-recipes/`. */
  function RecipeUrl(username: string, recipe: RecipeArg, timestamp: RecipeId,
                     parseDate: string -> Option<int>): (url: string)
    ensures url == "#" <==> username == "" || recipe.title == "" || !IsTruthy(ChosenId(recipe, timestamp))
    ensures url != "#" ==>
              url == "/" + username + "/my-recipes/" + GenerateRecipeSlug(recipe.title, ChosenId(recipe, timestamp), parseDate)
  {
    if username == "" then "#"
    else
      var id := ChosenId(recipe, timestamp);
      if recipe.title == "" || !IsTruthy(id) then "#"
      else "/" + username + "/my-recipes/" + GenerateRecipeSlug(recipe.title, id, parseDate)
  }

  /** `generateEditRecipeUrl(username, recipeId)` */
  function EditRecipeUrl(username: string, recipeId: string): (url: string)
    ensures url == "#" <==> username == "" || recipeId == ""
    ensures url != "#" ==> url == "/" + username + "/edit-recipe/" + recipeId
  {
    if username == "" || recipeId == "" then "#" else "/" + username + "/edit-recipe/" + recipeId
  }

  // ----- Route segments: what the router reads back -----

  /** A string that can stand as one path segment. */
  predicate IsSegment(s: string) { s != "" && '/' !in s }

  /** Splitting `/a/b` on `/` gives back the segments. */
  lemma TwoSegmentsSplit(a: string, b: string)
    requires '/' !in a && '/' !in b
    ensures Split("/" + a + "/" + b, '/') == ["", a, b]
  {
    assert ["", a, b][1..] == [a, b] && [a, b][1..] == [b];
    assert Join([a, b], '/') == a + "/" + b;
    assert Join(["", a, b], '/') == "/" + a + "/" + b;
    SplitJoin(["", a, b], '/');
  }

  /** Splitting `/a/b/c` on `/` gives back the segments. */
  lemma ThreeSegmentsSplit(a: string, b: string, c: string)
    requires '/' !in a && '/' !in b && '/' !in c
    ensures Split("/" + a + "/" + b + "/" + c, '/') == ["", a, b, c]
  {
    var bc := b + "/" + c;
    OneSeparatorSplit(b, c);
    SplitAtSeparator(a, '/', bc);
    ThreeSegmentsConcat(a, b, c);
    LeadingSeparatorSplit(a + "/" + bc, '/');
  }

  lemma OneSeparatorSplit(b: string, c: string)
    requires '/' !in b && '/' !in c
    ensures Split(b + "/" + c, '/') == [b, c]
  {
    SplitWithoutSeparator(c, '/');
    SplitAtSeparator(b, '/', c);
  }

  lemma ThreeSegmentsConcat(a: string, b: string, c: string)
    ensures "/" + a + "/" + b + "/" + c == ['/'] + (a + "/" + (b + "/" + c))
  {
  }

  /** A leading separator splits off an empty first part. */
  lemma LeadingSeparatorSplit(t: string, sep: char)
    ensures Split([sep] + t, sep) == [""] + Split(t, sep)
  {
    assert ([sep] + t)[1..] == t;
  }

  /** A profile, list, create or edit path for a username that is one
      segment splits into exactly the slash-separated segments it was built
      from: the username, then the fixed words and the recipe id. */
  lemma UserPathsSplit(username: string, recipeId: string)
    requires IsSegment(username)
    ensures Split(ProfileUrl(username), '/') == ["", username]
    ensures Split(MyRecipesUrl(username), '/') == ["", username, "my-recipes"]
    ensures Split(CreateRecipeUrl(username), '/') == ["", username, "create-recipe"]
    ensures IsSegment(recipeId) ==>
              Split(EditRecipeUrl(username, recipeId), '/') == ["", username, "edit-recipe", recipeId]
  {
    ProfilePathSplit(username);
    MyRecipesPathSplit(username);
    CreatePathSplit(username);
    if IsSegment(recipeId) {
      EditPathSplit(username, recipeId);
    }
  }

  lemma ProfilePathSplit(username: string)
    requires IsSegment(username)
    ensures Split(ProfileUrl(username), '/') == ["", username]
  {
    assert ["", username][1..] == [username];
    assert ProfileUrl(username) == Join(["", username], '/');
    SplitJoin(["", username], '/');
  }

  lemma MyRecipesPathSplit(username: string)
    requires IsSegment(username)
    ensures Split(MyRecipesUrl(username), '/') == ["", username, "my-recipes"]
  {
    assert MyRecipesUrl(username) == "/" + username + "/" + "my-recipes";
    TwoSegmentsSplit(username, "my-recipes");
  }

  lemma CreatePathSplit(username: string)
    requires IsSegment(username)
    ensures Split(CreateRecipeUrl(username), '/') == ["", username, "create-recipe"]
  {
    assert CreateRecipeUrl(username) == "/" + username + "/" + "create-recipe";
    TwoSegmentsSplit(username, "create-recipe");
  }

  lemma EditPathSplit(username: string, recipeId: string)
    requires IsSegment(username) && IsSegment(recipeId)
    ensures Split(EditRecipeUrl(username, recipeId), '/') == ["", username, "edit-recipe", recipeId]
  {
    assert EditRecipeUrl(username, recipeId) == "/" + username + "/" + "edit-recipe" + "/" + recipeId;
    ThreeSegmentsSplit(username, "edit-recipe", recipeId);
  }

  /** End to end: the detail page at `/:username/my-recipes/:recipeSlug`
      finds the username in the second segment and, by decoding the fourth,
      the UUID of the recipe whose link was built. */
  lemma RecipeUrlRoundTrip(username: string, title: string, u: string, createdAt: RecipeId,
                           timestamp: RecipeId, parseDate: string -> Option<int>)
    requires IsSegment(username) && title != "" && IsUuid(u)
    ensures var parts := Split(RecipeUrl(username, RecipeRecord(title, StringId(u), createdAt), timestamp, parseDate), '/');
            |parts| == 4 && parts[1] == username && parts[2] == "my-recipes" && ParseRecipeSlug(parts[3]) == u
  {
    var recipe := RecipeRecord(title, StringId(u), createdAt);
    var slug := GenerateRecipeSlug(title, StringId(u), parseDate);
    assert ChosenId(recipe, timestamp) == StringId(u);
    var url := RecipeUrl(username, recipe, timestamp, parseDate);
    assert url == "/" + username + "/my-recipes/" + slug;
    RecipePathSegments(username, slug);
    UuidSlugHasNoSlash(title, u, parseDate);
    ThreeSegmentsSplit(username, "my-recipes", slug);
    assert Split(url, '/') == ["", username, "my-recipes", slug];
    UuidRoundTrip(title, u, parseDate);
  }

  lemma RecipePathSegments(username: string, slug: string)
    ensures "/" + username + "/my-recipes/" + slug == "/" + username + "/" + "my-recipes" + "/" + slug
    ensures '/' !in "my-recipes"
  {
    assert "/my-recipes/" == "/" + "my-recipes" + "/";
  }

  /** The end-to-end round trip for an identifier written after a single
      hyphen: when the chosen id is not UUID-shaped and is written as a run of
      digits, the fourth segment decodes to that run. */
  lemma RecipeUrlDigitsRoundTrip(username: string, recipe: RecipeArg, timestamp: RecipeId,
                                 parseDate: string -> Option<int>)
    requires IsSegment(username) && recipe.title != ""
    requires var id := ChosenId(recipe, timestamp);
             && IsTruthy(id) && !(id.StringId? && LooksLikeUuid(id.text))
             && IsDigitRun(IdValue(id, parseDate))
    ensures var parts := Split(RecipeUrl(username, recipe, timestamp, parseDate), '/');
            && |parts| == 4 && parts[1] == username && parts[2] == "my-recipes"
            && ParseRecipeSlug(parts[3]) == IdValue(ChosenId(recipe, timestamp), parseDate)
  {
    var id := ChosenId(recipe, timestamp);
    var slug := GenerateRecipeSlug(recipe.title, id, parseDate);
    var url := RecipeUrl(username, recipe, timestamp, parseDate);
    assert url == "/" + username + "/my-recipes/" + slug;
    RecipePathSegments(username, slug);
    DigitsSlugHasNoSlash(recipe.title, id, parseDate);
    ThreeSegmentsSplit(username, "my-recipes", slug);
    DigitsRoundTrip(recipe.title, id, parseDate);
  }

  /** A record whose id is missing links through its creation time, and a
      bare title through the third argument: in both cases a positive
      integer time comes back from the link's last segment. */
  lemma ChosenIdFallbacks(username: string, title: string, id: RecipeId, n: int,
                          parseDate: string -> Option<int>)
    requires IsSegment(username) && title != "" && !IsTruthy(id) && 0 < n <= MaxSafeInteger
    ensures var parts := Split(RecipeUrl(username, RecipeRecord(title, id, NumberId(n)), NoId, parseDate), '/');
            |parts| == 4 && ParseRecipeSlug(parts[3]) == NatToDecimal(n)
    ensures var parts := Split(RecipeUrl(username, TitleArg(title), NumberId(n), parseDate), '/');
            |parts| == 4 && ParseRecipeSlug(parts[3]) == NatToDecimal(n)
  {
    assert IdValue(NumberId(n), parseDate) == NatToDecimal(n);
    RecipeUrlDigitsRoundTrip(username, RecipeRecord(title, id, NumberId(n)), NoId, parseDate);
    RecipeUrlDigitsRoundTrip(username, TitleArg(title), NumberId(n), parseDate);
  }

  /** Which user links coincide with one of the three literal fallbacks:
      the profile link of the users named "profile", "my-recipes" and
      "create-recipe" is the fallback of the profile, list and create builder
      respectively; a user's list or create link is never a fallback. */
  lemma FallbackCollisions(username: string)
    requires username != ""
    ensures ProfileUrl(username) == ProfileUrl("") <==> username == "profile"
    ensures ProfileUrl(username) == MyRecipesUrl("") <==> username == "my-recipes"
    ensures ProfileUrl(username) == CreateRecipeUrl("") <==> username == "create-recipe"
    ensures MyRecipesUrl(username) != ProfileUrl("")
    ensures MyRecipesUrl(username) != MyRecipesUrl("")
    ensures MyRecipesUrl(username) != CreateRecipeUrl("")
    ensures CreateRecipeUrl(username) != ProfileUrl("")
    ensures CreateRecipeUrl(username) != MyRecipesUrl("")
    ensures CreateRecipeUrl(username) != CreateRecipeUrl("")
  {
    assert ProfileUrl("profile") == ProfileUrl("");
    ProfileUrlInjective(username, "profile");
    assert ProfileUrl("my-recipes") == MyRecipesUrl("");
    ProfileUrlInjective(username, "my-recipes");
    assert ProfileUrl("create-recipe") == CreateRecipeUrl("");
    ProfileUrlInjective(username, "create-recipe");
    ListLinkIsNoFallback(username);
    CreateLinkIsNoFallback(username);
  }

  lemma ListLinkIsNoFallback(username: string)
    requires username != ""
    ensures MyRecipesUrl(username) != ProfileUrl("")
    ensures MyRecipesUrl(username) != MyRecipesUrl("")
    ensures MyRecipesUrl(username) != CreateRecipeUrl("")
  {
    var m := MyRecipesUrl(username);
    assert |m| == |username| + 12;
    assert m[|m| - 1] == 's';
    assert CreateRecipeUrl("")[13] == 'e';
  }

  lemma CreateLinkIsNoFallback(username: string)
    requires username != ""
    ensures CreateRecipeUrl(username) != ProfileUrl("")
    ensures CreateRecipeUrl(username) != MyRecipesUrl("")
    ensures CreateRecipeUrl(username) != CreateRecipeUrl("")
  {
    assert |CreateRecipeUrl(username)| == |username| + 15;
  }

  /** Two users get the same profile link exactly when their names agree. */
  lemma ProfileUrlInjective(u: string, v: string)
    requires u != "" && v != ""
    ensures ProfileUrl(u) == ProfileUrl(v) <==> u == v
  {
    SlashPrefixInjective(u, v);
  }

  lemma SlashPrefixInjective(u: string, v: string)
    ensures "/" + u == "/" + v <==> u == v
  {
    if "/" + u == "/" + v {
      assert u == ("/" + u)[1..] == ("/" + v)[1..] == v;
    }
  }

  /** The names that the app's route table claims for fixed pages, in
      lowercase: the one-segment paths `/profile`, `/saved-recipes`,
      `/create-recipe` and `/my-recipes` are static routes, which take
      precedence over the dynamic `/:username` route. */
  const ShadowedUsernames: set<string> := {"profile", "saved-recipes", "create-recipe", "my-recipes"}

  /** The one-segment paths of the route table's fixed pages, in lowercase:
      the home page `/` and the slash-prefixed shadowed names. A path reaches
      one of them when its ASCII lowercasing is in this set, because route
      matching ignores ASCII case. */
  const FixedPagePaths: set<string> := {"/"} + set n | n in ShadowedUsernames :: "/" + n

  /** A user's profile link reaches a fixed page instead of the profile
      exactly when the name, ignoring ASCII case, is one of the shadowed
      names; every such name passes the username format check. The first
      clause is the same fact for the exact lowercase spellings. */
  lemma ProfileUrlShadowed(username: string)
    requires username != ""
    ensures ProfileUrl(username) in FixedPagePaths <==> username in ShadowedUsernames
    ensures Lower(ProfileUrl(username)) in FixedPagePaths <==> Lower(username) in ShadowedUsernames
    ensures username in ShadowedUsernames ==> IsValidUsername(username)
    ensures Lower(username) in ShadowedUsernames ==> IsValidUsername(username)
  {
    ExactlyShadowed(username);
    ExactlyShadowed(Lower(username));
    LowerProfileUrl(username);
    if username in ShadowedUsernames {
      ShadowedNameChars(username);
    }
    if Lower(username) in ShadowedUsernames {
      ShadowedNameChars(Lower(username));
      LowerKeepsUsernameChars(username);
    }
  }

  /** A mixed-case name is shadowed too: "Profile" is a valid username, its
      link is not spelled like a fixed path, yet it reaches the fixed
      `/profile` page rather than the `/:username` route. */
  lemma MixedCaseNameIsShadowed()
    ensures IsValidUsername("Profile")
    ensures ProfileUrl("Profile") !in FixedPagePaths
    ensures Lower(ProfileUrl("Profile")) in FixedPagePaths
  {
    assert Lower("Profile") == "profile" by {
      var l := Lower("Profile");
      assert l[0] == LowerChar('P') == 'p';
      forall i | 1 <= i < 7 ensures l[i] == "profile"[i] {
        assert l[i] == LowerChar("Profile"[i]);
      }
    }
    ProfileUrlShadowed("Profile");
    assert "Profile" !in ShadowedUsernames by { assert "Profile"[0] == 'P'; }
  }

  /** The shadowed names are 3 to 30 lowercase letters and hyphens. */
  lemma ShadowedNameChars(name: string)
    requires name in ShadowedUsernames
    ensures 3 <= |name| <= 30
    ensures forall i :: 0 <= i < |name| ==> IsAsciiLower(name[i]) || name[i] == '-'
  {
  }

  /** A name whose ASCII lowercasing passes the format check passes it too. */
  lemma LowerKeepsUsernameChars(username: string)
    requires 3 <= |Lower(username)| <= 30
    requires forall i :: 0 <= i < |username| ==> IsAsciiLower(Lower(username)[i]) || Lower(username)[i] == '-'
    ensures IsValidUsername(username)
  {
    var l := Lower(username);
    forall i | 0 <= i < |username| ensures IsUsernameChar(username[i]) {
      assert l[i] == LowerChar(username[i]);
    }
  }

  /** The shadowing for exact spellings: the profile link is one of the
      lowercase fixed paths exactly when the name is a shadowed name. */
  lemma ExactlyShadowed(username: string)
    requires username != ""
    ensures ProfileUrl(username) in FixedPagePaths <==> username in ShadowedUsernames
  {
    var p := ProfileUrl(username);
    assert p == "/" + username && p != "/";
    if p in FixedPagePaths {
      var n :| n in ShadowedUsernames && p == "/" + n;
      SlashPrefixInjective(username, n);
    }
  }

  /** ASCII lowercasing commutes with the profile link builder. */
  lemma LowerProfileUrl(username: string)
    ensures Lower(ProfileUrl(username)) == ProfileUrl(Lower(username))
  {
    var p := ProfileUrl(username);
    var q := ProfileUrl(Lower(username));
    if username == "" {
      assert Lower(username) == "";
      forall i | 0 <= i < |p| ensures Lower(p)[i] == p[i] {
        assert !IsAsciiUpper(p[i]);
      }
    } else {
      assert p == "/" + username && q == "/" + Lower(username);
      forall i | 0 <= i < |p| ensures Lower(p)[i] == q[i] {
        if i > 0 {
          assert p[i] == username[i - 1];
        }
      }
    }
  }

  // ----- Usernames -----

  /** A username character: `[a-zA-Z0-9_-]`. */
  predicate IsUsernameChar(c: char) { IsAsciiAlnum(c) || c == '_' || c == '-' }

  /** `isValidUsername(username)`: 3 to 30 characters, each a letter, digit,
      underscore or hyphen. */
  function IsValidUsername(username: string): (ok: bool)
    ensures ok <==> 3 <= |username| <= 30 && forall i :: 0 <= i < |username| ==> IsUsernameChar(username[i])
  {
    if username == "" then false
    else
      // the character class matched from the start must reach the end
      var matched := RunEnd(IsUsernameChar, username, 0);
      matched == |username| && 3 <= matched <= 30
  }

  datatype Profile = Profile(username: Option<string>)
  datatype Metadata = Metadata(username: Option<string>)
  datatype User = User(email: Option<string>, metadata: Option<Metadata>)

  /** A string field that is present and truthy. */
  predicate IsFilled(field: Option<string>) { field.Some? && field.value != "" }

  function ProfileName(profile: Option<Profile>): Option<string> {
    if profile.Some? then profile.value.username else None
  }

  function MetadataName(user: Option<User>): Option<string> {
    if user.Some? && user.value.metadata.Some? then user.value.metadata.value.username else None
  }

  function Email(user: Option<User>): Option<string> {
    if user.Some? then user.value.email else None
  }

  /** The text of the email before its first `@`, keeping only ASCII letters
      and digits. */
  function EmailHandle(email: string): string {
    Filter(IsAsciiAlnum, Split(email, '@')[0])
  }

  /** `getUsernameForUrl(user, profile)`: the profile's username, else the
      sign-up metadata's username, else the sanitised local part of the
      email, else "user". */
  function UsernameForUrl(user: Option<User>, profile: Option<Profile>): (name: string)
    ensures IsFilled(ProfileName(profile)) ==> name == ProfileName(profile).value
    ensures !IsFilled(ProfileName(profile)) && IsFilled(MetadataName(user)) ==> name == MetadataName(user).value
    ensures !IsFilled(ProfileName(profile)) && !IsFilled(MetadataName(user)) && IsFilled(Email(user)) ==>
              name == EmailHandle(Email(user).value)
              && forall i :: 0 <= i < |name| ==> IsAsciiAlnum(name[i])
    ensures !IsFilled(ProfileName(profile)) && !IsFilled(MetadataName(user)) && !IsFilled(Email(user)) ==>
              name == "user"
  {
    if IsFilled(ProfileName(profile)) then ProfileName(profile).value
    else if IsFilled(MetadataName(user)) then MetadataName(user).value
    else if IsFilled(Email(user)) then EmailHandle(Email(user).value)
    else "user"
  }

  /** The email step keeps exactly the ASCII letters and digits of the text
      before the first `@` (the whole address when it has none), in order. */
  lemma EmailHandleIsSanitisedLocalPart(email: string)
    ensures exists local: string ::
      && |local| <= |email| && email[..|local|] == local && '@' !in local
      && (|local| == |email| || email[|local|] == '@')
      && EmailHandle(email) == Filter(IsAsciiAlnum, local)
  {
    FirstPartIsPrefix(email, '@');
  }

  /** The email step can yield the empty string, which is returned as it is
      rather than replaced by "user"; the path builders then fall back. */
  lemma EmptyHandleIsReturned()
    ensures UsernameForUrl(Some(User(Some("@example.com"), None)), None) == ""
    ensures ProfileUrl(UsernameForUrl(Some(User(Some("@example.com"), None)), None)) == "/profile"
  {
    SplitAtSeparator("", '@', "example.com");
  }

  /** A username taken from the email is valid whenever its length is in
      range; the final fallback "user" is always valid. */
  lemma DerivedUsernamesAreValid(user: Option<User>, profile: Option<Profile>)
    requires !IsFilled(ProfileName(profile)) && !IsFilled(MetadataName(user))
    requires 3 <= |UsernameForUrl(user, profile)| <= 30
    ensures IsValidUsername(UsernameForUrl(user, profile))
  {
  }

  /** Steps 1 and 2 return the stored name verbatim: nothing stops it from
      holding a `/`, which then splits the profile path into more segments. */
  lemma StoredNameIsNotSanitised()
    ensures UsernameForUrl(None, Some(Profile(Some("a/b")))) == "a/b"
    ensures Split(ProfileUrl("a/b"), '/') == ["", "a", "b"]
  {
    TwoSegmentsSplit("a", "b");
  }
}

=== FILE: wrappers.dfy ===
/** The optional value used for JavaScript's "no result" values: an index of `-1`, `null` or `undefined`. */
module Wrappers {

  datatype Option<+T> = None | Some(value: T) {

    /** Returns the value in Some, or `default` when None. */
    function GetOr(default: T): (r: T)
      ensures Some? ==> r == value
      ensures None? ==> r == default
    {
      match this
      case Some(v) => v
      case None => default
    }
  }
}
